=== FILE: README.md ===
# S&P 500 EMA-crossover screener: decision logic in Dafny

This project models the decision logic of the screener's `appSP500.py`. The
logic runs after the technical indicators for each instrument have been
computed. It has five parts:

- **Signal filter** (`filter_stocks`). An instrument passes when four things hold:
  - a bullish EMA_5 / EMA_13 / EMA_26 alignment appeared on one of the last four days;
  - on the last row, MACD is above its signal line and above 0;
  - on the last row, RSI is in [40, 60];
  - on the last row, slow %K is above %D.

  Each passing instrument also gets a details record. The record carries an
  informational "%K above %D in the last 5 rows" flag.
- **Oversold crossover detector** (`identify_stochastic_crossovers`). It finds
  the days on which %K crosses above %D while %K is below 20.
- **Confirmation tracker** (`track_ema_crossovers`). For each crossover, it finds
  the first later day within 20 rows on which the EMA condition holds.
- **Outcome tracker** (`track_price_changes`). It keeps the confirmation days
  whose close rose by at least 3% within the next 24 rows.
- **Backtest reduction** (`backtest_stochastic_crossovers`). For each candidate
  instrument:
  - skip the instrument when the cutoff day is not in its index;
  - otherwise run the three stages on the rows from the cutoff on;
  - count the confirmations and the successes, and compute a guarded success rate;
  - run the detector again over the full history and report its days.

Modules follow the components:

- `Indicators` holds the frame: rows of `Option<real>` cells, where a NaN is `None`.
- `SignalFilter`, `CrossoverDetector`, `ConfirmationTracker`, `OutcomeTracker` and
  `BacktestAggregator` hold the stages.
- `Sequences` holds the order and subsequence relations they share.

The scans of the detector, the confirmation tracker and the outcome tracker are
each modelled twice:

- as a pure first-match function with its reference meaning (an existential or a
  minimality statement);
- as a loop that mirrors the `for … break` of `appSP500.py`, proved equal to the
  function.

The filter's two backward scans and the backtest loop exist only as recursive
functions, each with its reference meaning. The `filter_stocks` loop is a
recursive function too. Its contract gives the shape of the result. Its
contents and order are stated by `FilterStocksPerInstrument`: the k-th symbol
and record belong to the k-th selected instrument, in universe order.

Python's NaN rule is kept: every ordered comparison with a NaN operand is false.
That includes `<=`, so a NaN row is neither "aligned" nor "not aligned".

## How the model reads the code

- `iloc[-k]` on a frame with fewer than k rows raises IndexError. The filter's
  backward scans stop at their first hit, so a short frame raises only when a
  scan runs past the start of the frame. `SignalFilter.Evaluate` returns
  `IndexError` in exactly those cases. It never does so for five rows or more.
- Only an empty frame is skipped. A frame of 1-4 rows is not skipped: it
  raises exactly as described above, and otherwise it is evaluated like any
  other frame.
- The details record's "last 5 days" flag is always "Yes" in any record the
  filter emits. Passing already requires %K above %D on the last row, and that
  ends the five-row scan at its first step.
- The confirming condition is kept exactly as written: `(A and B and C) or D`.
  A previous day whose EMA_5 is below EMA_26 confirms the day after on its own.
  `PrecedenceAsWritten` states exactly how this differs from the conjunctive
  reading.
- For the detector's ascending crossovers, the tracker's output is
  non-decreasing and can repeat a day: two crossovers can confirm on the same
  day. `DuplicateConfirmation` exhibits a five-row frame on which the detector
  finds days 1 and 3 and both confirm on day 4. A repeated day counts once per
  crossover, both in the total and, when it reaches the gain, in the successes
  (`WindowedSuccessesCount`, `SummaryCounts`).
- Closes are `Option<real>` too, because a multi-instrument download leaves NaN
  rows.
- A zero reference close is divided as float64 does it:
  - a positive numerator gives +inf, which passes any threshold;
  - a negative numerator gives -inf, and zero gives NaN; both fail.

  For a positive close, the gain test is `cur - base >= threshold * base`
  (`GainReachedPositiveBase`).
- Days are identified by row index inside a frame. Reported dates are the labels
  of those rows. An instrument's labels are strictly increasing day numbers, so
  the cutoff names at most one row.

## Model

| member | source | states |
|---|---|---|
| Indicators.Gt | appSP500.py:87 | Definition, no contract: Python's float `a > b`, false when either operand is NaN. It is used for every `>` the decision logic makes (appSP500.py:98, 100, 105, 153, 166). |
| Indicators.Lt | appSP500.py:153 | Definition, no contract: Python's float `a < b`, false when either operand is NaN. It is used for `Stoch_K < 20` here and for both tests on the previous day at appSP500.py:166-167. |
| Indicators.Le | appSP500.py:88 | Definition, no contract: Python's float `a <= b`, false when either operand is NaN, so it is not the negation of `Gt`. It is also used for the previous-day test at appSP500.py:153. |
| Indicators.Back | appSP500.py:84-85 | Definition, no contract: `iloc[-i]`, the i-th row from the end, for 1 <= i <= len. |
| Indicators.Aligned | appSP500.py:87 | Definition, no contract: EMA_5 above both EMA_13 and EMA_26, false when a cell is NaN. It is also the current-day half of the confirming condition at appSP500.py:166. |
| SignalFilter.NotAligned | appSP500.py:88 | Definition, no contract: EMA_5 at or below EMA_13 or EMA_26, false when the compared cells are NaN. |
| SignalFilter.EmaCrossAt | appSP500.py:84-90 | Definition, no contract: the test of loop offset i, row -i aligned and row -i-1 not aligned. |
| SignalFilter.RecentEmaCross | appSP500.py:79-92 | Definition, no contract: the reference meaning of `ema_crossover_recent`, some offset 1..4 inside the frame crosses. |
| SignalFilter.StochAbove | appSP500.py:100 | Definition, no contract: `Stoch_K > Stoch_D` on one row, false on NaN. It is also the test inside the five-row scan at appSP500.py:105. |
| SignalFilter.StochAboveInLast5 | appSP500.py:103-107 | Definition, no contract: the reference meaning of `stoch_crossover_last_5_days`, some row -1..-5 inside the frame has %K > %D. |
| SignalFilter.MacdCondition | appSP500.py:98 | Definition, no contract: MACD above its signal line and above 0. |
| SignalFilter.RsiCondition | appSP500.py:99 | Definition, no contract: the chained comparison 40 <= RSI <= 60, false on NaN. |
| SignalFilter.EmaScan | appSP500.py:79-92 | From loop offset `i`, the result is Ok(true) iff some offset k in i..4 has rows -k and -k-1 inside the frame, with row -k aligned and row -k-1 not. It is IndexError iff no such k exists and the frame has at most 4 rows. |
| SignalFilter.StochScan | appSP500.py:103-107 | The result is Ok(true) iff %K > %D on some row -k, k in i..5, inside the frame. It is IndexError iff there is no such row and the frame has fewer than 5 rows. |
| SignalFilter.Evaluate | appSP500.py:73-119 | An empty frame is skipped. A frame of 5 or more rows never raises. IndexError happens iff the frame has 1-4 rows and either the EMA crossing or the 5-row %K>%D hit is missing. The instrument is selected iff there is a recent EMA crossing and the MACD, RSI and %K>%D conditions hold on the last row. Its record holds four true flags and "Yes". |
| SignalFilter.Last5FlagIsInformational | appSP500.py:103-119 | On 5 or more rows, the flag is "some row -1..-5 has %K>%D" and the EMA flag is "some offset 1..4 crosses". The verdict is decided by the four conditions alone; the flag plays no part. |
| SignalFilter.FilterStocks | appSP500.py:62-122 | The call succeeds iff no instrument raises. On success the symbol list and the record list have the same length and match position by position. Neither is longer than the universe. |
| SignalFilter.FilterStocksMembers | appSP500.py:76-119 | On success, a record is emitted iff some instrument's evaluation selects it. |
| SignalFilter.SelectedFromMeaning | appSP500.py:66-119 | The positions listed from i on are exactly the instruments at or after i whose evaluation selects them. They are in range and strictly increasing, so each appears once, in universe order. |
| SignalFilter.FilterStocksSuffix | appSP500.py:66-119 | If filtering the whole universe raises nothing, filtering any suffix of it raises nothing either. |
| SignalFilter.FilterStocksFrom | appSP500.py:66-119 | Filtering the universe from position i on gives one record per selected instrument from i on. The k-th record is the one the k-th such instrument's evaluation selects. |
| SignalFilter.FilterStocksPerInstrument | appSP500.py:66-122 | On success, both lists have one entry per selected instrument, in universe order. The k-th symbol is the k-th selected instrument's symbol, and the k-th record is the one its evaluation selects. |
| CrossoverDetector.OversoldCross | appSP500.py:153 | Definition, no contract: %K > %D on row i, %K <= %D on row i-1, %K < 20 on row i, each false on NaN. |
| CrossoverDetector.DetectFrom | appSP500.py:150-155 | From row i on, it returns exactly the oversold crossover rows (%K>%D, previous %K<=%D, %K<20), strictly increasing and inside the frame. |
| CrossoverDetector.Detect | appSP500.py:150-155 | A row is emitted iff 1 <= row < len and it is an oversold crossover. The output is strictly increasing, so no day is emitted twice. |
| CrossoverDetector.IdentifyStochasticCrossovers | appSP500.py:150-155 | The `for` loop yields exactly the oversold crossover rows, the same sequence as `Detect`. |
| CrossoverDetector.DetectBefore | appSP500.py:151-154 | Definition, no contract: the crossovers the loop has appended before reaching row n. |
| CrossoverDetector.DetectBeforeFrom | appSP500.py:152-154 | What the loop has collected before row n, followed by the scan from row n, is the whole scan. This is the loop's invariant. |
| CrossoverDetector.WindowedDetection | appSP500.py:202-209 | On the suffix starting at the cutoff row c, row j is found iff j >= 1 and row c+j is a full-frame crossover. A crossover on the cutoff row itself is lost. |
| CrossoverDetector.WindowedDetectionAt | appSP500.py:202-209 | The same statement for one row j. |
| ConfirmationTracker.ConfirmsAt | appSP500.py:164-167 | Definition, no contract: the literal `(A and B and C) or D` on day j with day j-1 as previous, each comparison false on NaN. |
| ConfirmationTracker.ConfirmFrom | appSP500.py:161-169 | A found day lies in [s+i, s+days], inside the frame, and satisfies the literal condition, and no earlier day from s+i on does. With no result, no day in the window satisfies it. |
| ConfirmationTracker.Confirm | appSP500.py:160-169 | The result is Some(j) iff j is the first day in (s, s+days] that is inside the frame and satisfies `(A and B and C) or D`. |
| ConfirmationTracker.ConfirmedSources | appSP500.py:157-170 | Returns the crossovers that receive a confirmation, as a subsequence of the input, inside the frame. A crossover is kept iff its confirmation exists. |
| ConfirmationTracker.TrackEma | appSP500.py:157-170 | Definition, no contract: the tracker's output, one first confirming day per crossover that has one. Its meaning is stated by the rows below. |
| ConfirmationTracker.TrackEmaStep | appSP500.py:159-169 | One iteration of the outer loop: a crossover with a confirmation contributes exactly that day, one without contributes nothing. |
| ConfirmationTracker.TrackEmaPerSource | appSP500.py:157-170 | The tracker emits one day per confirmed crossover and no more days than there are crossovers. The k-th output is the confirmation of the k-th confirmed crossover. |
| ConfirmationTracker.TrackEmaMembers | appSP500.py:157-170 | A day is emitted iff it is the confirmation of some input crossover. |
| ConfirmationTracker.TrackEmaDays | appSP500.py:161-168 | Every emitted day j satisfies the condition, 1 <= j < len, and s < j <= s+days for some input crossover s. |
| ConfirmationTracker.FirstConfirmation | appSP500.py:160-169 | The inner loop with its two `break`s finds exactly the first confirming day of the window, or none. |
| ConfirmationTracker.TrackEmaCrossovers | appSP500.py:157-170 | The nested loops produce the tracker's output: one first-match day per confirmed crossover, in input order. |
| ConfirmationTracker.ConfirmFromInSuffix | appSP500.py:161-169 | The inner scan from row s of the suffix starting at row c finds a day iff the scan from row c+s of the full frame does, and the two days differ by c. |
| ConfirmationTracker.ConfirmInSuffix | appSP500.py:160-169 | The confirmation of one crossover on the suffix is its full-frame confirmation, shifted by c. |
| ConfirmationTracker.ConfirmInSuffixAt | appSP500.py:160-169 | For one outcome: suffix crossover s confirms on suffix row j iff full-frame crossover c+s confirms on row c+j. |
| ConfirmationTracker.ConfirmMonotone | appSP500.py:159-169 | Two crossovers s1 <= s2 confirm in order. If the later one comes before the earlier one's confirmation, both confirm on the same day. |
| ConfirmationTracker.TrackEmaNonDecreasing | appSP500.py:157-170 | For strictly increasing crossovers, the confirmation days are non-decreasing. |
| ConfirmationTracker.DuplicateExampleCrossovers | appSP500.py:150-155 | The detector finds exactly days 1 and 3 in the five-row example frame. |
| ConfirmationTracker.DuplicateExampleConfirmations | appSP500.py:160-169 | In the example frame, the crossovers on days 1 and 3 both first confirm on day 4. |
| ConfirmationTracker.DuplicateConfirmation | appSP500.py:150-170 | On a concrete five-row frame the detector finds days [1, 3], and the tracker given them returns [4, 4], repeating a day. |
| ConfirmationTracker.PrecedenceAsWritten | appSP500.py:166-167 | The literal condition accepts every day the conjunctive reading accepts. The extra days are exactly those where the previous EMA_5 < EMA_26 and the current day is not aligned. |
| ConfirmationTracker.ConjunctiveConfirmsAt | appSP500.py:166-167 | Definition, no contract: the reading `A and B and (C or D)`, which the code does not use. It serves only as the comparison in `PrecedenceAsWritten`. |
| OutcomeTracker.GainReached | appSP500.py:179-180 | Definition, no contract: `(cur - base) / base >= threshold` as float64 computes it. A NaN close fails. With a zero base, only a positive current close passes (+inf); -inf and NaN fail. |
| OutcomeTracker.Succeeds | appSP500.py:175-182 | Definition, no contract: some day in (s, s+24] inside the series reaches the gain from day s. |
| OutcomeTracker.GainReachedPositiveBase | appSP500.py:179-180 | For a positive reference close, `(cur-base)/base >= threshold` holds iff `cur - base >= threshold*base`. |
| OutcomeTracker.FirstGainFrom | appSP500.py:176-182 | A found day lies in [s+i, s+24], inside the series, and reaches the gain, and no earlier day from s+i on does. With no result, no day in the window reaches it. |
| OutcomeTracker.FirstGain | appSP500.py:175-182 | A stop day exists iff reference day s succeeds. It is the first day in (s, s+24] inside the series that reaches the gain. |
| OutcomeTracker.TrackPrices | appSP500.py:172-183 | The output is a subsequence of the reference days, so it keeps their order. |
| OutcomeTracker.TrackPricesFilters | appSP500.py:172-183 | Each day occurs in the output as often as in the input if it succeeds, and otherwise not at all. |
| OutcomeTracker.TrackPricesMembers | appSP500.py:172-183 | A day is in the output iff it is among the reference days and reaches the gain within the next 24 rows of the series. |
| OutcomeTracker.TrackPricesOrder | appSP500.py:172-183 | Output days come from the input and stay inside the series. A non-decreasing input gives a non-decreasing output. |
| OutcomeTracker.PriceTargetReached | appSP500.py:175-182 | The inner loop with its `break`s reports success iff some day among the next 24 rows inside the series reaches the gain. |
| OutcomeTracker.TrackPriceChanges | appSP500.py:172-183 | The loop produces the tracker's output: the succeeding reference days in input order. |
| OutcomeTracker.TrackPricesStep | appSP500.py:174-182 | One iteration of the outer loop: a succeeding reference day is appended, any other is not. |
| OutcomeTracker.SucceedsInSuffix | appSP500.py:204 | A reference day succeeds in the suffix from the cutoff iff the same day succeeds in the full series. |
| BacktestAggregator.DatesOf | appSP500.py:154 | The labels `data.index[i]` of the given rows, one per row, in the same order. The same labelling happens at appSP500.py:168. |
| BacktestAggregator.DatesOfOrder | appSP500.py:154 | With a strictly increasing index, ascending rows give ascending labels and non-decreasing rows give non-decreasing labels. |
| BacktestAggregator.Locate | appSP500.py:199-200 | The result is absent iff the cutoff is not in the index. Otherwise it is the row that holds the cutoff. |
| BacktestAggregator.IsPercentage | appSP500.py:208 | Definition, no contract: rate * total = successful * 100. |
| BacktestAggregator.SuccessRate | appSP500.py:206-208 | The rate is 0 when the total is 0. Otherwise rate * total = successful * 100. With successful <= total, the rate lies in [0, 100]. |
| BacktestAggregator.WindowedConfirmations | appSP500.py:202-203 | The windowed confirmations are rows of the window, each at least 1, non-decreasing. |
| BacktestAggregator.WindowedSuccesses | appSP500.py:204 | The successful rows are no more than the confirmations, inside the window, each at least 1, non-decreasing. |
| BacktestAggregator.SuccessfulDates | appSP500.py:204-217 | One label per successful row, each strictly after the cutoff day, non-decreasing. |
| BacktestAggregator.CrossoverDates | appSP500.py:209 | The labels of exactly the full-frame crossover rows, strictly increasing. |
| BacktestAggregator.BacktestInstrument | appSP500.py:190-218 | No summary iff the cutoff is not in the instrument's index. A summary names its instrument. |
| BacktestAggregator.SummaryCounts | appSP500.py:202-207 | A summary exists. Its total is the number of crossovers in the window from the cutoff row that get a confirmation. Its successes are the number of those crossovers whose confirmation day reaches 3% within 24 rows, at most the total, with one successful date each. |
| BacktestAggregator.SummaryRate | appSP500.py:206-208 | A summary's rate satisfies rate * total = successful * 100 when the total is positive. It is 0 when the total is 0 and lies in [0, 100]. |
| BacktestAggregator.SummaryDates | appSP500.py:199-217 | Successful dates come after the cutoff, non-decreasing. The crossover dates are exactly the full history's crossover days, ascending. |
| BacktestAggregator.WindowedConfirmationsMeaning | appSP500.py:202-203 | The windowed confirmations are exactly the first confirming days of the window's crossovers, one per crossover that has one. |
| BacktestAggregator.WindowedSuccessesMeaning | appSP500.py:204 | A window row is kept iff it is a windowed confirmation from which the full series' close reaches 3% within 24 rows. |
| BacktestAggregator.WindowedSuccessesCount | appSP500.py:204-207 | Every day occurs among the successes as often as among the confirmations if the close reaches 3% from it, and otherwise not at all. A day confirmed for two crossovers is counted twice. |
| BacktestAggregator.SucceedingCrossovers | appSP500.py:202-204 | Definition, no contract: the window crossovers whose first confirmation day, read in the full series, reaches 3% within 24 rows. |
| BacktestAggregator.SucceedingCount | appSP500.py:203-207 | Confirming and then filtering by outcome yields exactly one success per crossover whose confirmation day reaches the gain. |
| BacktestAggregator.WindowConfirmed | appSP500.py:202-203 | Definition, no contract: window row j is the first confirming day of one of the window's crossovers. |
| BacktestAggregator.ConfirmedAfterRow | appSP500.py:202-203 | Definition, no contract: full-frame row t is the first confirming day of a crossover on a row after c. |
| BacktestAggregator.ShiftConfirmation | appSP500.py:202-203 | Window crossover s confirming on window row j is exactly full-frame crossover c+s, a row after c, confirming on row c+j. |
| BacktestAggregator.WindowConfirmedIsAfter | appSP500.py:202-203 | A window confirmation, renumbered, is a full-frame confirmation of a crossover after the cutoff row. |
| BacktestAggregator.AfterIsWindowConfirmed | appSP500.py:202-203 | A full-frame confirmation of a crossover after the cutoff row is a window confirmation, renumbered. |
| BacktestAggregator.SuffixConfirmed | appSP500.py:202-203 | Window row j is a confirmation iff full-frame row c+j confirms a crossover after row c. The crossover on the cutoff row itself never counts. |
| BacktestAggregator.ConfirmedAfter | appSP500.py:199-203 | Definition, no contract: row t is the first confirming day of a full-history crossover dated strictly after the cutoff. |
| BacktestAggregator.Successful | appSP500.py:199-204 | Definition, no contract: row t confirms a crossover dated after the cutoff, and from it the close reaches 3% within 24 rows. |
| BacktestAggregator.ConfirmedAfterDates | appSP500.py:199-203 | With ascending dates, a crossover dated after the cutoff is a crossover on a row after the cutoff row. Its confirmation comes later still. |
| BacktestAggregator.WindowedSuccessMeaning | appSP500.py:202-204 | Window row j is counted as a success iff full-history row c+j is successful for the cutoff. |
| BacktestAggregator.ReportedRow | appSP500.py:204-217 | The label of every successful window row is among the reported successful dates. |
| BacktestAggregator.SuccessInWindow | appSP500.py:202-204 | A successful full-history row t = c+j is kept by the outcome stage as window row j. |
| BacktestAggregator.SuccessReported | appSP500.py:204-217 | The label of a kept window row j is reported as the date of full-history row t = c+j. |
| BacktestAggregator.SuccessfulRowReported | appSP500.py:202-217 | The label of every successful full-history row after the cutoff row is among the reported successful dates. |
| BacktestAggregator.SuccessfulDaysMeaning | appSP500.py:199-217 | Every reported successful date is after the cutoff. A date is reported iff it labels a successful row: the first confirmation of a crossover dated after the cutoff, from which the close reaches 3% within 24 rows. |
| BacktestAggregator.Backtest | appSP500.py:185-221 | There are no more summaries than candidates. |
| BacktestAggregator.BacktestMembers | appSP500.py:190-218 | A summary is reported iff it is some candidate's summary, that is, iff that candidate's index holds the cutoff. |
| BacktestAggregator.ReportingFrom | appSP500.py:190-200 | Definition, no contract: the positions from i on of the candidates whose index holds the cutoff. |
| BacktestAggregator.ReportingFromMeaning | appSP500.py:190-200 | Those positions are exactly the candidates from i on whose index holds the cutoff, each once, ascending, inside the candidate list. |
| BacktestAggregator.BacktestFrom | appSP500.py:190-218 | From candidate i on, the loop emits one summary per candidate that holds the cutoff, the k-th being the k-th such candidate's. |
| BacktestAggregator.BacktestPerCandidate | appSP500.py:190-218 | There is one summary per candidate whose index holds the cutoff, in candidate order. The k-th summary is the k-th such candidate's own. |

## Left out

- Data retrieval and persistence (appSP500.py:16-29, 125-147): a web-page scrape, a
  market-data download and CSV writes, all I/O.
- `calculate_indicators` (appSP500.py:32-60): the TA-Lib EMA, MACD, RSI and STOCH
  formulas are foreign code. A frame is taken as an input, NaN cells included.
  The MACD histogram column is not modelled, because no decision reads it.
- The cutoff date arithmetic (appSP500.py:187-188) and the index conversion
  (194-196) are library date handling. The cutoff day is a parameter.
- The cutoff the program itself computes is never a trading day. `end_date` is
  fixed at '2024-10-05' (appSP500.py:20), and 545 days earlier
  (appSP500.py:187) is 2023-04-09, a Sunday. A daily trading index does not
  hold it, so the check at appSP500.py:199 skips every instrument, and the
  program as configured never produces a summary. With the program's own
  setting, only the `None` branch of `BacktestInstrument` is reached. The model
  keeps the cutoff a parameter so that the summary logic is still stated.
- The Flask routes `index`, `download_file`, `view_indicators`, `select_stocks` and
  `save_breakout` (appSP500.py:243-357) are request handling, rendering and file
  read-modify-write. This includes the monitor-list deduplication.
  `ensure_monitoring_file` (236-239) is file I/O as well. The hand-off of the filter's pass list to
  the backtest also happens inside the `index` route.
- `get_all_crossover_dates` (appSP500.py:224-234) is unused glue that composes the
  detector and the confirmation tracker, both modelled.
- SignalFilter.FilterStocks: its own contract gives only the shape of the two
  lists (success, equal lengths, matching symbols). Which instruments appear,
  and in what order, is stated by `FilterStocksPerInstrument` and
  `FilterStocksMembers`, because a per-position statement in the function's
  own contract makes every recursive step expensive to prove.
- Floating point: values are exact reals, and the threshold 0.03 is exactly 3/100.
  Rounding of float64 arithmetic is not modelled. The success rate is an exact
  real quotient.
- The `days` parameter of `track_ema_crossovers` is a `nat`. A negative value in
  Python gives an empty range, which behaves like 0.
- BacktestAggregator.Backtest: its contract gives only the length bound. Which
  summaries appear, one per candidate holding the cutoff and in candidate
  order, is stated by `BacktestPerCandidate` and `BacktestMembers`. What each
  one holds is stated by `SummaryCounts`, `SummaryRate`, `SummaryDates` and
  `SuccessfulDaysMeaning`.
- BacktestAggregator.BacktestInstrument: its contract states only when a summary
  exists and whose it is. Its counts, rate and dates are stated by
  `SummaryCounts`, `SummaryRate`, `SummaryDates` and `SuccessfulDaysMeaning`.
- BacktestAggregator.WindowedConfirmations: its contract gives only the shape of
  the output. Which days it holds is stated by `WindowedConfirmationsMeaning`.
- BacktestAggregator.WindowedSuccesses: its contract gives only the shape of the
  output. Which days it keeps is stated by `WindowedSuccessesMeaning`, and how
  often by `WindowedSuccessesCount`.

=== FILE: backtest.dfy ===
/**
  The reduction in `backtest_stochastic_crossovers`: per instrument, restrict
  the frame and the closes to the days from the cutoff on, run detector,
  confirmation tracker and outcome tracker there, count, and report the
  detector's days over the full frame alongside.

  Trading days are day numbers; an instrument's days are strictly increasing,
  so a day names exactly one row. The cutoff day itself is a parameter.
 */
module BacktestAggregator {
  import opened Indicators
  import opened Sequences
  import CrossoverDetector
  import ConfirmationTracker
  import OutcomeTracker

  type Date = nat

  /** One instrument's price history with its indicator frame, row for row. */
  datatype Instrument = Instrument(symbol: string, dates: seq<Date>, frame: Frame, closes: seq<Value>)

  ghost predicate WellFormed(inst: Instrument) {
    && |inst.dates| == |inst.frame| == |inst.closes|
    && StrictlyIncreasing(inst.dates)
  }

  /** The row appended to `backtest_results`. */
  datatype Summary = Summary(
    stock: string,
    totalCrossovers: nat,
    successfulCrossovers: nat,
    successRate: real,
    stochasticCrossoverDates: seq<Date>,
    successfulDates: seq<Date>)

  /** `cutoff in indicators.index`, and the row it names. */
  function Locate(dates: seq<Date>, d: Date): (r: Option<nat>)
    ensures r.Some? ==> r.value < |dates| && dates[r.value] == d
    ensures r.None? <==> d !in dates
  {
    if |dates| == 0 then None
    else if dates[0] == d then Some(0)
    else
      match Locate(dates[1..], d)
      case Some(k) => Some(k + 1)
      case None => None
  }

  /** `rate` is `successful` per `total` in percent. */
  predicate IsPercentage(rate: real, successful: nat, total: nat)
    requires total > 0
  {
    rate * (total as real) == (successful as real) * 100.0
  }

  /** `(successful / total) * 100 if total > 0 else 0`. */
  function SuccessRate(successful: nat, total: nat): (rate: real)
    ensures total == 0 ==> rate == 0.0
    ensures total > 0 ==> IsPercentage(rate, successful, total)
    ensures successful <= total ==> 0.0 <= rate <= 100.0
  {
    if total > 0 then (successful as real) / (total as real) * 100.0 else 0.0
  }

  /** The index labels of the given rows. */
  function DatesOf(dates: seq<Date>, rows: seq<nat>): (r: seq<Date>)
    requires InFrame(rows, |dates|)
    ensures |r| == |rows|
    ensures forall k :: 0 <= k < |r| ==> r[k] == dates[rows[k]]
  {
    seq(|rows|, k requires 0 <= k < |rows| => dates[rows[k]])
  }

  /** Labels of ascending rows in an ascending index ascend; repeated rows repeat. */
  lemma DatesOfOrder(dates: seq<Date>, rows: seq<nat>)
    requires InFrame(rows, |dates|) && StrictlyIncreasing(dates)
    ensures StrictlyIncreasing(rows) ==> StrictlyIncreasing(DatesOf(dates, rows))
    ensures NonDecreasing(rows) ==> NonDecreasing(DatesOf(dates, rows))
  {
    var r := DatesOf(dates, rows);
    if NonDecreasing(rows) {
      forall i, j | 0 <= i < j < |r| ensures r[i] <= r[j] {
        if rows[i] < rows[j] {
          assert dates[rows[i]] < dates[rows[j]];
        }
      }
    }
  }

  /** The three windowed stages for a cutoff on row `c`. */
  function WindowedConfirmations(inst: Instrument, c: nat): (r: seq<nat>)
    requires WellFormed(inst) && c < |inst.frame|
    ensures InFrame(r, |inst.frame| - c)
    ensures NonDecreasing(r)
    ensures forall j :: j in r ==> 1 <= j
  {
    var window := inst.frame[c..];
    var crossovers := CrossoverDetector.Detect(window);
    ConfirmationTracker.TrackEmaDays(window, crossovers, ConfirmationTracker.ConfirmationWindow);
    ConfirmationTracker.TrackEmaNonDecreasing(window, crossovers, ConfirmationTracker.ConfirmationWindow);
    ConfirmationTracker.TrackEma(window, crossovers, ConfirmationTracker.ConfirmationWindow)
  }

  /** The outcome stage on the window: the confirmation rows whose close rose
      enough, as rows of the window. */
  function WindowedSuccesses(inst: Instrument, c: nat): (r: seq<nat>)
    requires WellFormed(inst) && c < |inst.frame|
    ensures |r| <= |WindowedConfirmations(inst, c)|
    ensures InFrame(r, |inst.frame| - c)
    ensures NonDecreasing(r)
    ensures forall j :: j in r ==> 1 <= j
  {
    var emaCrossovers := WindowedConfirmations(inst, c);
    var successful := OutcomeTracker.TrackPrices(inst.closes[c..], emaCrossovers, OutcomeTracker.GainThreshold);
    OutcomeTracker.TrackPricesOrder(inst.closes[c..], emaCrossovers, OutcomeTracker.GainThreshold);
    successful
  }

  /** The labels of the window's successful rows: days after the cutoff, in order. */
  function SuccessfulDates(inst: Instrument, c: nat): (r: seq<Date>)
    requires WellFormed(inst) && c < |inst.frame|
    ensures |r| == |WindowedSuccesses(inst, c)|
    ensures forall k :: 0 <= k < |r| ==> r[k] == inst.dates[c + WindowedSuccesses(inst, c)[k]]
    ensures forall d :: d in r ==> d > inst.dates[c]
    ensures NonDecreasing(r)
  {
    var successful := WindowedSuccesses(inst, c);
    var windowDates := inst.dates[c..];
    DatesOfOrder(windowDates, successful);
    var r := DatesOf(windowDates, successful);
    forall k | 0 <= k < |r|
      ensures r[k] == inst.dates[c + successful[k]] && r[k] > inst.dates[c]
    {
      assert successful[k] in successful;
      assert windowDates[successful[k]] == inst.dates[c + successful[k]];
    }
    r
  }

  /** The labels of the full-frame crossovers (`identify_stochastic_crossovers(indicators)`). */
  function CrossoverDates(inst: Instrument): (r: seq<Date>)
    requires WellFormed(inst)
    ensures StrictlyIncreasing(r)
    ensures forall d :: d in r <==>
      exists i :: 1 <= i < |inst.frame| && CrossoverDetector.OversoldCross(inst.frame, i) && inst.dates[i] == d
  {
    var all := CrossoverDetector.Detect(inst.frame);
    DatesOfOrder(inst.dates, all);
    var r := DatesOf(inst.dates, all);
    assert forall i :: i in all ==> inst.dates[i] in r by {
      forall i | i in all ensures inst.dates[i] in r {
        var k :| 0 <= k < |all| && all[k] == i;
        assert r[k] == inst.dates[i];
      }
    }
    r
  }

  /** One iteration of the instrument loop; `None` is the `continue` for a cutoff
      missing from the index. */
  function BacktestInstrument(inst: Instrument, cutoff: Date): (r: Option<Summary>)
    requires WellFormed(inst)
    ensures r.None? <==> cutoff !in inst.dates
    ensures r.Some? ==> r.value.stock == inst.symbol
  {
    match Locate(inst.dates, cutoff)
    case None => None
    case Some(c) =>
      var total := |WindowedConfirmations(inst, c)|;
      var succeeded := |WindowedSuccesses(inst, c)|;
      Some(Summary(inst.symbol, total, succeeded, SuccessRate(succeeded, total),
                   CrossoverDates(inst), SuccessfulDates(inst, c)))
  }

  /** What a produced summary counts: the total is the number of crossovers in
      the window from the cutoff row on that received a confirmation; the
      successes are the number of those whose confirmation day reaches the
      gain, at most the total, one successful day each. */
  lemma SummaryCounts(inst: Instrument, cutoff: Date)
    requires WellFormed(inst)
    requires cutoff in inst.dates
    ensures BacktestInstrument(inst, cutoff).Some?
    ensures var s := BacktestInstrument(inst, cutoff).value;
      s.successfulCrossovers <= s.totalCrossovers && |s.successfulDates| == s.successfulCrossovers
    ensures var c := Locate(inst.dates, cutoff).value;
      var window := inst.frame[c..];
      BacktestInstrument(inst, cutoff).value.totalCrossovers
      == |ConfirmationTracker.ConfirmedSources(window, CrossoverDetector.Detect(window), ConfirmationTracker.ConfirmationWindow)|
    ensures var c := Locate(inst.dates, cutoff).value;
      BacktestInstrument(inst, cutoff).value.successfulCrossovers
      == |SucceedingCrossovers(inst, c, CrossoverDetector.Detect(inst.frame[c..]))|
  {
    var c := Locate(inst.dates, cutoff).value;
    var s := BacktestInstrument(inst, cutoff).value;
    WindowedConfirmationsMeaning(inst, c);
    SucceedingCount(inst, c, CrossoverDetector.Detect(inst.frame[c..]));
    assert s.totalCrossovers == |WindowedConfirmations(inst, c)|;
    assert s.successfulCrossovers == |WindowedSuccesses(inst, c)|;
    assert s.successfulDates == SuccessfulDates(inst, c);
  }

  /** A produced summary's rate is its successes per total in percent, lies in
      [0, 100], and is 0 when nothing was confirmed. */
  lemma SummaryRate(inst: Instrument, cutoff: Date)
    requires WellFormed(inst)
    requires cutoff in inst.dates
    ensures BacktestInstrument(inst, cutoff).Some?
    ensures var s := BacktestInstrument(inst, cutoff).value;
      && 0.0 <= s.successRate <= 100.0
      && (s.totalCrossovers == 0 ==> s.successRate == 0.0)
      && (s.totalCrossovers > 0 ==> IsPercentage(s.successRate, s.successfulCrossovers, s.totalCrossovers))
  {
    var c := Locate(inst.dates, cutoff).value;
    var s := BacktestInstrument(inst, cutoff).value;
    var total := |WindowedConfirmations(inst, c)|;
    var succeeded := |WindowedSuccesses(inst, c)|;
    assert s.totalCrossovers == total && s.successfulCrossovers == succeeded;
    assert s.successRate == SuccessRate(succeeded, total);
  }

  /** What a produced summary's dates are: successful days strictly after the
      cutoff and in order, and exactly the full frame's crossover days,
      ascending. */
  lemma SummaryDates(inst: Instrument, cutoff: Date)
    requires WellFormed(inst)
    requires cutoff in inst.dates
    ensures BacktestInstrument(inst, cutoff).Some?
    ensures var s := BacktestInstrument(inst, cutoff).value;
      && (forall d :: d in s.successfulDates ==> d > cutoff)
      && NonDecreasing(s.successfulDates)
      && StrictlyIncreasing(s.stochasticCrossoverDates)
      && (forall d :: d in s.stochasticCrossoverDates <==>
            exists i :: 1 <= i < |inst.frame| && CrossoverDetector.OversoldCross(inst.frame, i) && inst.dates[i] == d)
  {
    var c := Locate(inst.dates, cutoff).value;
    var s := BacktestInstrument(inst, cutoff).value;
    assert s.successfulDates == SuccessfulDates(inst, c);
    assert s.stochasticCrossoverDates == CrossoverDates(inst);
  }

  /** Window row `j` is the first confirming day of one of the window's crossovers. */
  ghost predicate WindowConfirmed(window: Frame, j: nat) {
    exists s :: s in CrossoverDetector.Detect(window)
      && ConfirmationTracker.Confirm(window, s, ConfirmationTracker.ConfirmationWindow) == Some(j)
  }

  /** Row `t` of `f` is the first confirming day of a crossover on a row after `c`. */
  ghost predicate ConfirmedAfterRow(f: Frame, c: nat, t: nat) {
    exists x :: x in CrossoverDetector.Detect(f) && c < x
      && ConfirmationTracker.Confirm(f, x, ConfirmationTracker.ConfirmationWindow) == Some(t)
  }

  /** The windowed confirmations are, one per crossover of the window that has
      one, the first confirming days of the window's crossovers. */
  lemma WindowedConfirmationsMeaning(inst: Instrument, c: nat)
    requires WellFormed(inst) && c < |inst.frame|
    ensures |WindowedConfirmations(inst, c)|
      == |ConfirmationTracker.ConfirmedSources(inst.frame[c..], CrossoverDetector.Detect(inst.frame[c..]), ConfirmationTracker.ConfirmationWindow)|
    ensures forall j :: j in WindowedConfirmations(inst, c) <==> WindowConfirmed(inst.frame[c..], j)
  {
    var window := inst.frame[c..];
    var crossovers := CrossoverDetector.Detect(window);
    ConfirmationTracker.TrackEmaPerSource(window, crossovers, ConfirmationTracker.ConfirmationWindow);
    ConfirmationTracker.TrackEmaMembers(window, crossovers, ConfirmationTracker.ConfirmationWindow);
  }

  /** The outcome stage keeps exactly the windowed confirmations from which the
      close, read in the full series, reaches the 3% gain within 24 rows. */
  lemma WindowedSuccessesMeaning(inst: Instrument, c: nat)
    requires WellFormed(inst) && c < |inst.frame|
    ensures forall j :: j in WindowedSuccesses(inst, c) <==>
      j in WindowedConfirmations(inst, c) && OutcomeTracker.Succeeds(inst.closes, c + j, OutcomeTracker.GainThreshold)
  {
    var confirmations := WindowedConfirmations(inst, c);
    OutcomeTracker.TrackPricesMembers(inst.closes[c..], confirmations, OutcomeTracker.GainThreshold);
    forall j | j in confirmations
      ensures OutcomeTracker.Succeeds(inst.closes[c..], j, OutcomeTracker.GainThreshold)
          <==> OutcomeTracker.Succeeds(inst.closes, c + j, OutcomeTracker.GainThreshold)
    {
      var k :| 0 <= k < |confirmations| && confirmations[k] == j;
      OutcomeTracker.SucceedsInSuffix(inst.closes, c, j, OutcomeTracker.GainThreshold);
    }
  }

  /** The outcome stage keeps every occurrence of a windowed confirmation that
      reaches the gain and drops every other one: a day confirmed for two
      crossovers is counted twice when it succeeds. */
  lemma WindowedSuccessesCount(inst: Instrument, c: nat)
    requires WellFormed(inst) && c < |inst.frame|
    ensures forall p: nat ::
      multiset(WindowedSuccesses(inst, c))[p]
      == (if OutcomeTracker.Succeeds(inst.closes, c + p, OutcomeTracker.GainThreshold)
          then multiset(WindowedConfirmations(inst, c))[p] else 0)
  {
    var confirmations := WindowedConfirmations(inst, c);
    OutcomeTracker.TrackPricesFilters(inst.closes[c..], confirmations, OutcomeTracker.GainThreshold);
    forall p: nat | c + p < |inst.closes| {
      OutcomeTracker.SucceedsInSuffix(inst.closes, c, p, OutcomeTracker.GainThreshold);
    }
  }

  /** The crossovers among `xs`, rows of the window from row `c`, that are
      confirmed on a day from which the close, read in the full series,
      reaches the gain. */
  ghost function SucceedingCrossovers(inst: Instrument, c: nat, xs: seq<nat>): seq<nat>
    requires WellFormed(inst) && c < |inst.frame| && InFrame(xs, |inst.frame| - c)
  {
    if |xs| == 0 then []
    else
      var rest := SucceedingCrossovers(inst, c, xs[1..]);
      match ConfirmationTracker.Confirm(inst.frame[c..], xs[0], ConfirmationTracker.ConfirmationWindow)
      case Some(j) =>
        if OutcomeTracker.Succeeds(inst.closes, c + j, OutcomeTracker.GainThreshold) then [xs[0]] + rest else rest
      case None => rest
  }

  /** Confirming and then filtering by outcome yields one success per crossover
      whose confirmation day reaches the gain. */
  lemma {:induction false} SucceedingCount(inst: Instrument, c: nat, xs: seq<nat>)
    requires WellFormed(inst) && c < |inst.frame| && InFrame(xs, |inst.frame| - c)
    ensures InFrame(ConfirmationTracker.TrackEma(inst.frame[c..], xs, ConfirmationTracker.ConfirmationWindow), |inst.closes[c..]|)
    ensures |OutcomeTracker.TrackPrices(inst.closes[c..],
               ConfirmationTracker.TrackEma(inst.frame[c..], xs, ConfirmationTracker.ConfirmationWindow),
               OutcomeTracker.GainThreshold)|
      == |SucceedingCrossovers(inst, c, xs)|
  {
    var window, closes := inst.frame[c..], inst.closes[c..];
    var days, gain := ConfirmationTracker.ConfirmationWindow, OutcomeTracker.GainThreshold;
    ConfirmationTracker.TrackEmaDays(window, xs, days);
    if |xs| > 0 {
      var rest := xs[1..];
      assert InFrame(rest, |window|);
      SucceedingCount(inst, c, rest);
      var tail := ConfirmationTracker.TrackEma(window, rest, days);
      match ConfirmationTracker.Confirm(window, xs[0], days)
      case Some(j) =>
        var points := [j] + tail;
        assert ConfirmationTracker.TrackEma(window, xs, days) == points;
        assert points[0] == j && points[1..] == tail;
        OutcomeTracker.SucceedsInSuffix(inst.closes, c, j, gain);
      case None =>
    }
  }

  /** Crossover `s` of the suffix from row `c` confirming on its row `j` is
      crossover `x == c + s` of the full frame, a row after `c`, confirming on
      row `c + j`. */
  lemma ShiftConfirmation(f: Frame, c: nat, s: nat, x: nat, j: nat)
    requires c < |f| && x == c + s
    ensures (s in CrossoverDetector.Detect(f[c..])
             && ConfirmationTracker.Confirm(f[c..], s, ConfirmationTracker.ConfirmationWindow) == Some(j))
        <==> (x in CrossoverDetector.Detect(f) && c < x
              && ConfirmationTracker.Confirm(f, x, ConfirmationTracker.ConfirmationWindow) == Some(c + j))
  {
    CrossoverDetector.WindowedDetectionAt(f, c, s);
    if x < |f| {
      ConfirmationTracker.ConfirmInSuffixAt(f, c, s, x, j, ConfirmationTracker.ConfirmationWindow);
    }
  }

  /** A window confirmation, renumbered, is a full-frame confirmation of a
      crossover after row `c`. */
  lemma WindowConfirmedIsAfter(f: Frame, c: nat, j: nat)
    requires c < |f| && WindowConfirmed(f[c..], j)
    ensures ConfirmedAfterRow(f, c, c + j)
  {
    var s :| s in CrossoverDetector.Detect(f[c..])
      && ConfirmationTracker.Confirm(f[c..], s, ConfirmationTracker.ConfirmationWindow) == Some(j);
    ShiftConfirmation(f, c, s, c + s, j);
  }

  /** A full-frame confirmation of a crossover after row `c` is a window
      confirmation, renumbered. */
  lemma AfterIsWindowConfirmed(f: Frame, c: nat, j: nat)
    requires c < |f| && ConfirmedAfterRow(f, c, c + j)
    ensures WindowConfirmed(f[c..], j)
  {
    var x :| x in CrossoverDetector.Detect(f) && c < x
      && ConfirmationTracker.Confirm(f, x, ConfirmationTracker.ConfirmationWindow) == Some(c + j);
    ShiftConfirmation(f, c, x - c, x, j);
  }

  /** The window's confirmations, renumbered, are the full frame's
      confirmations of the crossovers after row `c`. The crossover on row `c`
      itself is not among them: the window has no row before it. */
  lemma SuffixConfirmed(f: Frame, c: nat, j: nat)
    requires c < |f|
    ensures WindowConfirmed(f[c..], j) <==> ConfirmedAfterRow(f, c, c + j)
  {
    if WindowConfirmed(f[c..], j) {
      WindowConfirmedIsAfter(f, c, j);
    }
    if ConfirmedAfterRow(f, c, c + j) {
      AfterIsWindowConfirmed(f, c, j);
    }
  }

  /** Full-history row `t` is the first confirming day of a crossover dated
      strictly after the cutoff. */
  ghost predicate ConfirmedAfter(inst: Instrument, cutoff: Date, t: nat)
    requires WellFormed(inst)
  {
    exists x :: x in CrossoverDetector.Detect(inst.frame) && cutoff < inst.dates[x]
      && ConfirmationTracker.Confirm(inst.frame, x, ConfirmationTracker.ConfirmationWindow) == Some(t)
  }

  /** Full-history row `t` is a success of the backtest for `cutoff`: it confirms
      a crossover dated after the cutoff, and from it the close reaches the 3%
      gain within the next 24 rows. */
  ghost predicate Successful(inst: Instrument, cutoff: Date, t: nat)
    requires WellFormed(inst)
  {
    ConfirmedAfter(inst, cutoff, t) && OutcomeTracker.Succeeds(inst.closes, t, OutcomeTracker.GainThreshold)
  }

  /** With ascending dates, "dated after the cutoff row's day" is "after the
      cutoff row"; the confirming day comes later still. */
  lemma ConfirmedAfterDates(inst: Instrument, c: nat, t: nat)
    requires WellFormed(inst) && c < |inst.frame|
    ensures ConfirmedAfter(inst, inst.dates[c], t) <==> ConfirmedAfterRow(inst.frame, c, t)
    ensures ConfirmedAfterRow(inst.frame, c, t) ==> c < t < |inst.frame|
  {
    var days := ConfirmationTracker.ConfirmationWindow;
    if ConfirmedAfter(inst, inst.dates[c], t) {
      var x :| x in CrossoverDetector.Detect(inst.frame) && inst.dates[c] < inst.dates[x]
        && ConfirmationTracker.Confirm(inst.frame, x, days) == Some(t);
      assert c < x;
    }
    if ConfirmedAfterRow(inst.frame, c, t) {
      var x :| x in CrossoverDetector.Detect(inst.frame) && c < x
        && ConfirmationTracker.Confirm(inst.frame, x, days) == Some(t);
      assert inst.dates[c] < inst.dates[x];
    }
  }

  /** Window row `j` is counted as a success iff full-history row `c + j` is a
      success for the cutoff on row `c`. */
  lemma WindowedSuccessMeaning(inst: Instrument, c: nat, j: nat)
    requires WellFormed(inst) && c < |inst.frame|
    ensures j in WindowedSuccesses(inst, c) <==> Successful(inst, inst.dates[c], c + j)
  {
    WindowedSuccessesMeaning(inst, c);
    WindowedConfirmationsMeaning(inst, c);
    SuffixConfirmed(inst.frame, c, j);
    ConfirmedAfterDates(inst, c, c + j);
  }

  /** The label of a successful window row is among the reported days. */
  lemma ReportedRow(inst: Instrument, c: nat, j: nat)
    requires WellFormed(inst) && c < |inst.frame|
    requires j in WindowedSuccesses(inst, c)
    ensures c + j < |inst.frame| && inst.dates[c + j] in SuccessfulDates(inst, c)
  {
    var k :| 0 <= k < |WindowedSuccesses(inst, c)| && WindowedSuccesses(inst, c)[k] == j;
    assert SuccessfulDates(inst, c)[k] == inst.dates[c + j];
  }

  /** A successful full-history row `t == c + j` is kept by the outcome stage
      as window row `j`. */
  lemma SuccessInWindow(inst: Instrument, c: nat, j: nat, t: nat)
    requires WellFormed(inst) && c < |inst.frame| && t == c + j
    requires Successful(inst, inst.dates[c], t)
    ensures j in WindowedSuccesses(inst, c)
  {
    assert Successful(inst, inst.dates[c], c + j);
    WindowedSuccessMeaning(inst, c, j);
  }

  /** The label of window row `j`, full-history row `t == c + j`, is reported
      when the row is a success. */
  lemma SuccessReported(inst: Instrument, c: nat, j: nat, t: nat)
    requires WellFormed(inst) && c < |inst.frame| && t == c + j
    requires j in WindowedSuccesses(inst, c)
    ensures t < |inst.frame| && inst.dates[t] in SuccessfulDates(inst, c)
  {
    ReportedRow(inst, c, j);
  }

  /** The label of a successful full-history row after the cutoff row is among
      the reported successful days. */
  lemma SuccessfulRowReported(inst: Instrument, c: nat, t: nat)
    requires WellFormed(inst) && c < t < |inst.frame|
    requires Successful(inst, inst.dates[c], t)
    ensures inst.dates[t] in SuccessfulDates(inst, c)
  {
    SuccessInWindow(inst, c, t - c, t);
    SuccessReported(inst, c, t - c, t);
  }

  /** The reported successful days are exactly the days of the successful rows,
      all after the cutoff. */
  lemma SuccessfulDaysMeaning(inst: Instrument, cutoff: Date)
    requires WellFormed(inst)
    requires cutoff in inst.dates
    ensures BacktestInstrument(inst, cutoff).Some?
    ensures forall d :: d in BacktestInstrument(inst, cutoff).value.successfulDates ==> cutoff < d
    ensures forall d :: d in BacktestInstrument(inst, cutoff).value.successfulDates <==>
      exists t :: 0 <= t < |inst.frame| && inst.dates[t] == d && Successful(inst, cutoff, t)
  {
    var c := Locate(inst.dates, cutoff).value;
    var successful := WindowedSuccesses(inst, c);
    var dates := BacktestInstrument(inst, cutoff).value.successfulDates;
    assert dates == SuccessfulDates(inst, c);
    forall d | d in dates
      ensures exists t :: 0 <= t < |inst.frame| && inst.dates[t] == d && Successful(inst, cutoff, t)
    {
      var k :| 0 <= k < |dates| && dates[k] == d;
      var j := successful[k];
      assert j in successful;
      WindowedSuccessMeaning(inst, c, j);
      assert d == inst.dates[c + j];
    }
    forall d | exists t :: 0 <= t < |inst.frame| && inst.dates[t] == d && Successful(inst, cutoff, t)
      ensures d in dates
    {
      var t :| 0 <= t < |inst.frame| && inst.dates[t] == d && Successful(inst, cutoff, t);
      ConfirmedAfterDates(inst, c, t);
      SuccessfulRowReported(inst, c, t);
    }
  }

  /** The whole loop over the candidate instruments, in their order. */
  function Backtest(insts: seq<Instrument>, cutoff: Date): (r: seq<Summary>)
    requires forall k :: 0 <= k < |insts| ==> WellFormed(insts[k])
    ensures |r| <= |insts|
  {
    if |insts| == 0 then []
    else
      var rest := Backtest(insts[1..], cutoff);
      match BacktestInstrument(insts[0], cutoff)
      case Some(s) => [s] + rest
      case None => rest
  }

  /** The loop reports a summary exactly for the instruments whose index holds
      the cutoff, and nothing else. */
  lemma {:induction false} BacktestMembers(insts: seq<Instrument>, cutoff: Date)
    requires forall k :: 0 <= k < |insts| ==> WellFormed(insts[k])
    ensures forall s :: s in Backtest(insts, cutoff) <==>
      exists k :: 0 <= k < |insts| && BacktestInstrument(insts[k], cutoff) == Some(s)
  {
    if |insts| > 0 {
      var tail := insts[1..];
      BacktestMembers(tail, cutoff);
      var rest := Backtest(tail, cutoff);
      forall s
        ensures s in rest <==> exists k :: 1 <= k < |insts| && BacktestInstrument(insts[k], cutoff) == Some(s)
      {
        if s in rest {
          var k :| 0 <= k < |tail| && BacktestInstrument(tail[k], cutoff) == Some(s);
          assert tail[k] == insts[k + 1];
        }
        if exists k :: 1 <= k < |insts| && BacktestInstrument(insts[k], cutoff) == Some(s) {
          var k :| 1 <= k < |insts| && BacktestInstrument(insts[k], cutoff) == Some(s);
          assert tail[k - 1] == insts[k];
        }
      }
    }
  }

  /** The positions, from `i` on, of the candidates whose index holds the cutoff. */
  ghost function ReportingFrom(insts: seq<Instrument>, cutoff: Date, i: nat): seq<nat>
    decreases |insts| - i
  {
    if i >= |insts| then []
    else if cutoff in insts[i].dates then [i] + ReportingFrom(insts, cutoff, i + 1)
    else ReportingFrom(insts, cutoff, i + 1)
  }

  /** Those positions are exactly the candidates from `i` on that hold the
      cutoff, each once, ascending. */
  lemma {:induction false} ReportingFromMeaning(insts: seq<Instrument>, cutoff: Date, i: nat)
    decreases |insts| - i
    ensures forall k :: k in ReportingFrom(insts, cutoff, i) <==> i <= k < |insts| && cutoff in insts[k].dates
    ensures InFrame(ReportingFrom(insts, cutoff, i), |insts|)
    ensures StrictlyIncreasing(ReportingFrom(insts, cutoff, i))
  {
    if i < |insts| {
      ReportingFromMeaning(insts, cutoff, i + 1);
      var later := ReportingFrom(insts, cutoff, i + 1);
      if cutoff in insts[i].dates {
        assert ReportingFrom(insts, cutoff, i) == [i] + later;
        forall k | 0 <= k < |later| ensures i < later[k] {
          assert later[k] in later;
        }
      }
    }
  }

  /** The loop over the candidates from position `i` on emits the summaries of
      the candidates that hold the cutoff, one each, in their order. */
  lemma {:induction false} BacktestFrom(insts: seq<Instrument>, cutoff: Date, i: nat)
    requires forall k :: 0 <= k < |insts| ==> WellFormed(insts[k])
    requires i <= |insts|
    decreases |insts| - i
    ensures InFrame(ReportingFrom(insts, cutoff, i), |insts|)
    ensures |Backtest(insts[i..], cutoff)| == |ReportingFrom(insts, cutoff, i)|
    ensures forall k :: 0 <= k < |Backtest(insts[i..], cutoff)| ==>
      BacktestInstrument(insts[ReportingFrom(insts, cutoff, i)[k]], cutoff) == Some(Backtest(insts[i..], cutoff)[k])
  {
    ReportingFromMeaning(insts, cutoff, i);
    if i < |insts| {
      BacktestFrom(insts, cutoff, i + 1);
      assert insts[i..][0] == insts[i] && insts[i..][1..] == insts[i + 1..];
      var rest := Backtest(insts[i + 1..], cutoff);
      var later := ReportingFrom(insts, cutoff, i + 1);
      match BacktestInstrument(insts[i], cutoff)
      case Some(s) =>
        assert Backtest(insts[i..], cutoff) == [s] + rest;
        assert ReportingFrom(insts, cutoff, i) == [i] + later;
      case None =>
        assert Backtest(insts[i..], cutoff) == rest;
        assert ReportingFrom(insts, cutoff, i) == later;
    }
  }

  /** One summary per candidate whose index holds the cutoff, in candidate
      order: the k-th summary is the k-th such candidate's. */
  lemma BacktestPerCandidate(insts: seq<Instrument>, cutoff: Date)
    requires forall k :: 0 <= k < |insts| ==> WellFormed(insts[k])
    ensures InFrame(ReportingFrom(insts, cutoff, 0), |insts|)
    ensures |Backtest(insts, cutoff)| == |ReportingFrom(insts, cutoff, 0)|
    ensures forall k :: 0 <= k < |Backtest(insts, cutoff)| ==>
      BacktestInstrument(insts[ReportingFrom(insts, cutoff, 0)[k]], cutoff) == Some(Backtest(insts, cutoff)[k])
  {
    BacktestFrom(insts, cutoff, 0);
    assert insts[0..] == insts;
  }
}

=== FILE: confirmation_tracker.dfy ===
/**
  `track_ema_crossovers`: for every stochastic crossover, the first later day
  within a bounded window on which the EMA condition holds.

  The condition is kept exactly as appSP500.py groups it,
  `(A and B and C) or D`: a previous-day short EMA below the long EMA confirms
  on its own, whatever the current day looks like.
 */
module ConfirmationTracker {
  import opened Indicators
  import opened Sequences
  import CrossoverDetector

  /** The default `days=20`. */
  const ConfirmationWindow: nat := 20

  /** The confirming condition for day `j`, with day `j - 1` as "previous". */
  predicate ConfirmsAt(f: Frame, j: nat)
    requires 1 <= j < |f|
  {
    var cur := f[j];
    var prev := f[j - 1];
    (Aligned(cur) && Lt(prev.ema5, prev.ema13)) || Lt(prev.ema5, prev.ema26)
  }

  /** The inner loop from offset `i` on: offsets up to `days`, stopping at the end of the frame. */
  function ConfirmFrom(f: Frame, s: nat, i: nat, days: nat): (r: Option<nat>)
    requires s < |f| && 1 <= i
    decreases days + 1 - i
    ensures r.Some? ==> s + i <= r.value <= s + days && r.value < |f| && ConfirmsAt(f, r.value)
    ensures r.Some? ==> forall j :: s + i <= j < r.value ==> !ConfirmsAt(f, j)
    ensures r.None? ==> forall j :: s + i <= j <= s + days && j < |f| ==> !ConfirmsAt(f, j)
  {
    if i > days || s + i >= |f| then None
    else if ConfirmsAt(f, s + i) then Some(s + i)
    else ConfirmFrom(f, s, i + 1, days)
  }

  /** The confirmation of the crossover on day `s`: the first confirming day in
      `(s, s + days]` that the frame still holds, or none. */
  function Confirm(f: Frame, s: nat, days: nat): (r: Option<nat>)
    requires s < |f|
    ensures r.Some? ==>
      s < r.value <= s + days && r.value < |f| && ConfirmsAt(f, r.value)
      && forall m :: s < m < r.value ==> !ConfirmsAt(f, m)
    ensures r.None? ==> forall j :: s < j <= s + days && j < |f| ==> !ConfirmsAt(f, j)
  {
    ConfirmFrom(f, s, 1, days)
  }

  /** The crossovers that receive a confirmation, in input order. */
  function ConfirmedSources(f: Frame, xs: seq<nat>, days: nat): (src: seq<nat>)
    requires InFrame(xs, |f|)
    ensures IsSubsequence(src, xs)
    ensures InFrame(src, |f|)
    ensures forall s :: s in src <==> s in xs && Confirm(f, s, days).Some?
  {
    if |xs| == 0 then []
    else if Confirm(f, xs[0], days).Some? then [xs[0]] + ConfirmedSources(f, xs[1..], days)
    else ConfirmedSources(f, xs[1..], days)
  }

  /** The tracker's output. */
  function TrackEma(f: Frame, xs: seq<nat>, days: nat): seq<nat>
    requires InFrame(xs, |f|)
  {
    if |xs| == 0 then []
    else
      match Confirm(f, xs[0], days)
      case Some(j) => [j] + TrackEma(f, xs[1..], days)
      case None => TrackEma(f, xs[1..], days)
  }

  /** One day per confirmed crossover, in the same order: the k-th output is the
      confirmation of the k-th crossover that has one, so the tracker never emits
      more days than it was given crossovers. */
  lemma {:induction false} TrackEmaPerSource(f: Frame, xs: seq<nat>, days: nat)
    requires InFrame(xs, |f|)
    ensures |TrackEma(f, xs, days)| == |ConfirmedSources(f, xs, days)| <= |xs|
    ensures forall k :: 0 <= k < |TrackEma(f, xs, days)| ==>
      Confirm(f, ConfirmedSources(f, xs, days)[k], days) == Some(TrackEma(f, xs, days)[k])
  {
    SubsequenceLength<nat>(ConfirmedSources(f, xs, days), xs);
    if |xs| > 0 {
      assert InFrame(xs[1..], |f|);
      TrackEmaPerSource(f, xs[1..], days);
    }
  }

  /** A day is emitted exactly when it is the confirmation of some input crossover. */
  lemma {:induction false} TrackEmaMembers(f: Frame, xs: seq<nat>, days: nat)
    requires InFrame(xs, |f|)
    ensures forall j :: j in TrackEma(f, xs, days) <==> exists s :: s in xs && Confirm(f, s, days) == Some(j)
  {
    if |xs| > 0 {
      var rest := xs[1..];
      assert InFrame(rest, |f|);
      TrackEmaMembers(f, rest, days);
      forall j
        ensures j in TrackEma(f, xs, days) <==> exists s :: s in xs && Confirm(f, s, days) == Some(j)
      {
        if exists s :: s in xs && Confirm(f, s, days) == Some(j) {
          var s :| s in xs && Confirm(f, s, days) == Some(j);
          if s != xs[0] {
            assert s in rest;
          }
        }
        if j in TrackEma(f, rest, days) {
          var s :| s in rest && Confirm(f, s, days) == Some(j);
          assert s in xs;
        }
      }
    }
  }

  /** The inner scan only looks forward, so scanning from row `s` of the suffix
      that starts at row `c` finds the full-frame scan's day, renumbered. */
  lemma {:induction false} ConfirmFromInSuffix(f: Frame, c: nat, s: nat, i: nat, days: nat)
    requires c + s < |f| && 1 <= i
    decreases days + 1 - i
    ensures ConfirmFrom(f[c..], s, i, days).Some? <==> ConfirmFrom(f, c + s, i, days).Some?
    ensures ConfirmFrom(f[c..], s, i, days).Some? ==>
      ConfirmFrom(f, c + s, i, days).value == c + ConfirmFrom(f[c..], s, i, days).value
  {
    if i <= days && s + i < |f| - c {
      assert f[c..][s + i] == f[c + s + i] && f[c..][s + i - 1] == f[c + s + i - 1];
      assert ConfirmsAt(f[c..], s + i) <==> ConfirmsAt(f, c + s + i);
      ConfirmFromInSuffix(f, c, s, i + 1, days);
    }
  }

  /** `Confirm` on a suffix of the frame is `Confirm` on the full frame, shifted. */
  lemma ConfirmInSuffix(f: Frame, c: nat, s: nat, days: nat)
    requires c + s < |f|
    ensures Confirm(f[c..], s, days).Some? <==> Confirm(f, c + s, days).Some?
    ensures Confirm(f[c..], s, days).Some? ==> Confirm(f, c + s, days).value == c + Confirm(f[c..], s, days).value
  {
    ConfirmFromInSuffix(f, c, s, 1, days);
  }

  /** The same for one outcome: the crossover on row `s` of the suffix confirms
      on its row `j` iff the crossover on row `x == c + s` of the full frame
      confirms on row `c + j`. */
  lemma ConfirmInSuffixAt(f: Frame, c: nat, s: nat, x: nat, j: nat, days: nat)
    requires x == c + s && x < |f|
    ensures Confirm(f[c..], s, days) == Some(j) <==> Confirm(f, x, days) == Some(c + j)
  {
    ConfirmInSuffix(f, c, s, days);
  }

  /** Every emitted day lies strictly after some input crossover, at most `days`
      later, inside the frame, and satisfies the confirming condition. */
  lemma TrackEmaDays(f: Frame, xs: seq<nat>, days: nat)
    requires InFrame(xs, |f|)
    ensures InFrame(TrackEma(f, xs, days), |f|)
    ensures forall j :: j in TrackEma(f, xs, days) ==>
      1 <= j < |f| && ConfirmsAt(f, j) && exists s :: s in xs && s < j <= s + days
  {
    var src := ConfirmedSources(f, xs, days);
    var r := TrackEma(f, xs, days);
    TrackEmaPerSource(f, xs, days);
    forall j | j in r
      ensures 1 <= j < |f| && ConfirmsAt(f, j) && exists s :: s in xs && s < j <= s + days
    {
      var k :| 0 <= k < |r| && r[k] == j;
      assert src[k] in src;
      assert Confirm(f, src[k], days) == Some(j);
    }
  }

  /** One step of the tracker at position `n` of the crossovers. */
  lemma TrackEmaStep(f: Frame, xs: seq<nat>, n: nat, days: nat)
    requires InFrame(xs, |f|) && n < |xs|
    ensures InFrame(xs[n..], |f|) && InFrame(xs[n + 1..], |f|)
    ensures Confirm(f, xs[n], days).Some? ==>
      TrackEma(f, xs[n..], days) == [Confirm(f, xs[n], days).value] + TrackEma(f, xs[n + 1..], days)
    ensures Confirm(f, xs[n], days).None? ==>
      TrackEma(f, xs[n..], days) == TrackEma(f, xs[n + 1..], days)
  {
    assert xs[n..][1..] == xs[n + 1..];
  }

  /** The inner loop of `track_ema_crossovers` for the crossover on day `startIndex`:
      offsets `1..days`, `break` at the end of data and at the first match. */
  method FirstConfirmation(f: Frame, startIndex: nat, days: nat) returns (found: Option<nat>)
    requires startIndex < |f|
    ensures found == Confirm(f, startIndex, days)
  {
    found := None;
    var i := 1;
    while i <= days
      invariant 1 <= i
      invariant ConfirmFrom(f, startIndex, i, days) == Confirm(f, startIndex, days)
    {
      if startIndex + i >= |f| {
        break;
      }
      if ConfirmsAt(f, startIndex + i) {
        found := Some(startIndex + i);
        break;
      }
      i := i + 1;
    }
  }

  /** The outer loop of `track_ema_crossovers`: one inner scan per crossover, appending its match. */
  method TrackEmaCrossovers(f: Frame, crossovers: seq<nat>, days: nat) returns (emaCrossovers: seq<nat>)
    requires InFrame(crossovers, |f|)
    ensures emaCrossovers == TrackEma(f, crossovers, days)
  {
    emaCrossovers := [];
    var n := 0;
    while n < |crossovers|
      invariant n <= |crossovers|
      invariant emaCrossovers + TrackEma(f, crossovers[n..], days) == TrackEma(f, crossovers, days)
    {
      var found := FirstConfirmation(f, crossovers[n], days);
      TrackEmaStep(f, crossovers, n, days);
      if found.Some? {
        emaCrossovers := emaCrossovers + [found.value];
      }
      n := n + 1;
    }
  }

  /** Two crossovers confirm in the order they occurred; when the later one falls
      before the earlier one's confirmation, both confirm on the same day. */
  lemma ConfirmMonotone(f: Frame, s1: nat, s2: nat, days: nat)
    requires s1 <= s2 < |f|
    requires Confirm(f, s1, days).Some? && Confirm(f, s2, days).Some?
    ensures Confirm(f, s1, days).value <= Confirm(f, s2, days).value
    ensures Confirm(f, s1, days).value > s2 ==> Confirm(f, s1, days) == Confirm(f, s2, days)
  {
  }

  /** For ascending crossovers (as the detector produces), the output is
      non-decreasing; it may repeat a day, see `DuplicateConfirmation`. */
  lemma TrackEmaNonDecreasing(f: Frame, xs: seq<nat>, days: nat)
    requires InFrame(xs, |f|)
    requires StrictlyIncreasing(xs)
    ensures NonDecreasing(TrackEma(f, xs, days))
  {
    var src := ConfirmedSources(f, xs, days);
    var r := TrackEma(f, xs, days);
    TrackEmaPerSource(f, xs, days);
    SubsequenceIncreasing(src, xs);
    forall k, l | 0 <= k < l < |r| ensures r[k] <= r[l] {
      var a, b := src[k], src[l];
      assert a in src && b in src;
      assert a < b;
      assert Confirm(f, a, days) == Some(r[k]) && Confirm(f, b, days) == Some(r[l]);
      ConfirmMonotone(f, a, b, days);
    }
  }

  /** A row with the given %K, %D and short EMA; both slower EMAs are 1. */
  function ExampleRow(k: Value, d: Value, e5: real): Row {
    Row(Some(e5), Some(1.0), Some(1.0), None, None, None, k, d)
  }

  /** Five days: %K crosses above %D (below 20) on days 1 and 3; the short EMA
      falls below the slower ones on day 3 only. */
  const DuplicateExample: Frame := [
    ExampleRow(Some(5.0), Some(6.0), 10.0),
    ExampleRow(Some(7.0), Some(6.0), 10.0),
    ExampleRow(Some(5.0), Some(6.0), 10.0),
    ExampleRow(Some(7.0), Some(6.0), 0.0),
    ExampleRow(None, None, 10.0)]

  /** The detector finds the crossovers on days 1 and 3 of the example. */
  lemma DuplicateExampleCrossovers()
    ensures CrossoverDetector.Detect(DuplicateExample) == [1, 3]
  {
    var f := DuplicateExample;
    assert CrossoverDetector.OversoldCross(f, 1) && !CrossoverDetector.OversoldCross(f, 2);
    assert CrossoverDetector.OversoldCross(f, 3) && !CrossoverDetector.OversoldCross(f, 4);
    assert CrossoverDetector.DetectFrom(f, 4) == [];
    assert CrossoverDetector.DetectFrom(f, 3) == [3];
  }

  /** Both of the example's crossovers first confirm on day 4. */
  lemma DuplicateExampleConfirmations()
    ensures Confirm(DuplicateExample, 1, ConfirmationWindow) == Some(4)
    ensures Confirm(DuplicateExample, 3, ConfirmationWindow) == Some(4)
  {
    var f := DuplicateExample;
    assert !ConfirmsAt(f, 2) && !ConfirmsAt(f, 3) && ConfirmsAt(f, 4);
  }

  /** The detector's own output can confirm twice on one day: the crossovers
      on days 1 and 3 both confirm on day 4, the first day after day 3's short
      EMA dipped below EMA_26. */
  lemma DuplicateConfirmation()
    ensures CrossoverDetector.Detect(DuplicateExample) == [1, 3]
    ensures TrackEma(DuplicateExample, CrossoverDetector.Detect(DuplicateExample), ConfirmationWindow) == [4, 4]
  {
    DuplicateExampleCrossovers();
    DuplicateExampleConfirmations();
    assert [1, 3][1..] == [3];
    assert [3][1..] == [];
  }

  /** The conjunctive reading `A and B and (C or D)`; appSP500.py does not use it. */
  predicate ConjunctiveConfirmsAt(f: Frame, j: nat)
    requires 1 <= j < |f|
  {
    Aligned(f[j]) && (Lt(f[j - 1].ema5, f[j - 1].ema13) || Lt(f[j - 1].ema5, f[j - 1].ema26))
  }

  /** The literal grouping accepts everything the conjunctive reading accepts, and
      more: exactly the days whose previous short EMA is below the long EMA while
      the current day is not aligned (a NaN current row included). */
  lemma PrecedenceAsWritten(f: Frame, j: nat)
    requires 1 <= j < |f|
    ensures ConjunctiveConfirmsAt(f, j) ==> ConfirmsAt(f, j)
    ensures (ConfirmsAt(f, j) && !ConjunctiveConfirmsAt(f, j)) <==>
      (Lt(f[j - 1].ema5, f[j - 1].ema26) && !Aligned(f[j]))
  {
  }
}

=== FILE: crossover_detector.dfy ===
/**
  `identify_stochastic_crossovers`: the days on which slow %K crosses above %D
  while %K is still in oversold territory. A day is identified by its row
  index in the frame the detector was given.
 */
module CrossoverDetector {
  import opened Indicators
  import opened Sequences

  /** `Stoch_K < 20`. */
  const OversoldCeiling: real := 20.0

  /** Row `i` is an oversold crossover: %K above %D today, at or below it yesterday,
      and %K under the ceiling today. NaN cells make each test false. */
  predicate OversoldCross(f: Frame, i: nat)
    requires 1 <= i < |f|
  {
    && Gt(f[i].stochK, f[i].stochD)
    && Le(f[i - 1].stochK, f[i - 1].stochD)
    && Lt(f[i].stochK, Some(OversoldCeiling))
  }

  /** The crossovers among rows `i..|f|-1`, in row order. */
  function DetectFrom(f: Frame, i: nat): (r: seq<nat>)
    requires 1 <= i
    decreases |f| - i
    ensures forall j :: j in r <==> i <= j < |f| && OversoldCross(f, j)
    ensures forall k :: 0 <= k < |r| ==> i <= r[k] < |f|
    ensures StrictlyIncreasing(r)
  {
    if i >= |f| then []
    else if OversoldCross(f, i) then [i] + DetectFrom(f, i + 1)
    else DetectFrom(f, i + 1)
  }

  /** The detector over the whole frame: exactly the crossover rows, each once, ascending. */
  function Detect(f: Frame): (r: seq<nat>)
    ensures forall j :: j in r <==> 1 <= j < |f| && OversoldCross(f, j)
    ensures forall k :: 0 <= k < |r| ==> 1 <= r[k] < |f|
    ensures StrictlyIncreasing(r)
  {
    DetectFrom(f, 1)
  }

  /** The crossovers among rows `1..n-1`, as the loop has collected them
      before row `n`. */
  ghost function DetectBefore(f: Frame, n: nat): seq<nat>
    requires n <= |f|
  {
    if n <= 1 then [] else DetectBefore(f, n - 1) + (if OversoldCross(f, n - 1) then [n - 1] else [])
  }

  /** What the loop has collected before row `n`, followed by the scan from
      row `n` on, is the whole scan. */
  lemma {:induction false} DetectBeforeFrom(f: Frame, n: nat)
    requires 1 <= n <= |f|
    ensures DetectBefore(f, n) + DetectFrom(f, n) == DetectFrom(f, 1)
    decreases n
  {
    if n > 1 {
      DetectBeforeFrom(f, n - 1);
      var before, rest := DetectBefore(f, n - 1), DetectFrom(f, n);
      if OversoldCross(f, n - 1) {
        assert DetectFrom(f, n - 1) == [n - 1] + rest;
        assert DetectBefore(f, n) == before + [n - 1];
        Associate(before, [n - 1], rest);
      } else {
        assert DetectFrom(f, n - 1) == rest;
        assert DetectBefore(f, n) == before + [];
        assert before + [] == before;
      }
    }
  }

  /** The `for i in range(1, len(data))` loop of `identify_stochastic_crossovers`. */
  method IdentifyStochasticCrossovers(f: Frame) returns (crossovers: seq<nat>)
    ensures crossovers == Detect(f)
    ensures forall j :: j in crossovers <==> 1 <= j < |f| && OversoldCross(f, j)
  {
    crossovers := [];
    var i := 1;
    while i < |f|
      invariant 1 <= i && (|f| == 0 || i <= |f|)
      invariant |f| > 0 ==> crossovers == DetectBefore(f, i)
      invariant |f| == 0 ==> crossovers == []
    {
      if OversoldCross(f, i) {
        crossovers := crossovers + [i];
      }
      i := i + 1;
    }
    if |f| > 0 {
      DetectBeforeFrom(f, |f|);
      assert DetectFrom(f, |f|) == [];
      assert crossovers + [] == crossovers;
    }
  }

  /** Row `j` of the suffix that starts at row `c` is a crossover iff row
      `c + j` of the full frame is one, except that the suffix's row 0 never
      is: it has no row before it. */
  lemma WindowedDetectionAt(f: Frame, c: nat, j: nat)
    requires c < |f|
    ensures j in Detect(f[c..]) <==> 1 <= j && c + j in Detect(f)
  {
    if 1 <= j < |f| - c {
      assert f[c..][j] == f[c + j] && f[c..][j - 1] == f[c + j - 1];
      assert OversoldCross(f[c..], j) <==> OversoldCross(f, c + j);
    }
  }

  /** Detecting on the suffix that starts at row `c` finds exactly the full-frame
      crossovers after row `c`, renumbered from `c`; a crossover on row `c`
      itself is lost, because the suffix has no row before it. */
  lemma WindowedDetection(f: Frame, c: nat)
    requires c < |f|
    ensures forall j :: j in Detect(f[c..]) <==> 1 <= j && c + j in Detect(f)
  {
    forall j
      ensures j in Detect(f[c..]) <==> 1 <= j && c + j in Detect(f)
    {
      WindowedDetectionAt(f, c, j);
    }
  }
}

=== FILE: indicators.dfy ===
/**
  The indicator frame of one instrument, as `calculate_indicators` leaves it:
  one row per trading day, each column a float series whose warm-up
  positions (and any other undefined cell) are NaN.

  The TA-Lib formulas themselves are not part of this model; a frame is an
  input. What matters downstream is how Python compares a NaN: every ordered
  comparison with a NaN operand is false, including `<=` and `>=`.
 */
module Indicators {

  datatype Option<+T> = None | Some(value: T)

  /** One cell of an indicator or price column; `None` stands for NaN. */
  type Value = Option<real>

  /** `a > b` on floats: false as soon as either side is NaN. */
  predicate Gt(a: Value, b: Value) {
    a.Some? && b.Some? && a.value > b.value
  }

  /** `a < b` on floats. */
  predicate Lt(a: Value, b: Value) {
    a.Some? && b.Some? && a.value < b.value
  }

  /** `a <= b` on floats: a NaN operand makes it false, so it is NOT `!Gt(a, b)`. */
  predicate Le(a: Value, b: Value) {
    a.Some? && b.Some? && a.value <= b.value
  }

  /** The columns of the frame that the decision logic reads. */
  datatype Row = Row(
    ema5: Value,
    ema13: Value,
    ema26: Value,
    macd: Value,
    macdSignal: Value,
    rsi: Value,
    stochK: Value,
    stochD: Value)

  /** The bullish alignment of one row: the short EMA above both slower EMAs
      (`ema_crossover_today` in `filter_stocks`, and the current-day half of
      the confirming condition in `track_ema_crossovers`). */
  predicate Aligned(r: Row) {
    Gt(r.ema5, r.ema13) && Gt(r.ema5, r.ema26)
  }

  /** A frame is index-aligned with the instrument's trading days. */
  type Frame = seq<Row>

  /** Python's `iloc[-i]`: the i-th row counted from the end. */
  function Back(f: Frame, i: nat): Row
    requires 1 <= i <= |f|
  {
    f[|f| - i]
  }
}

=== FILE: outcome_tracker.dfy ===
/**
  `track_price_changes`: which reference days were followed, within 24 trading
  days, by a close at least `threshold` (as a fraction) above the reference
  close. Closes are float64 cells; a NaN close is `None`.
 */
module OutcomeTracker {
  import opened Indicators
  import opened Sequences

  /** `range(1, 25)`: offsets 1..24 after the reference day. */
  const GainWindow: nat := 24
  /** The default `threshold=0.03`. */
  const GainThreshold: real := 0.03

  /** `(cur - base) / base >= threshold` on float64 values. A NaN operand makes
      it false. Dividing by a zero base gives +inf for a positive numerator
      (which passes any threshold), -inf for a negative one and NaN for zero. */
  predicate GainReached(base: Value, cur: Value, threshold: real) {
    && base.Some? && cur.Some?
    && if base.value != 0.0 then (cur.value - base.value) / base.value >= threshold
       else cur.value > 0.0
  }

  /** For a positive reference close the test is the multiplied-out comparison. */
  lemma GainReachedPositiveBase(base: real, cur: real, threshold: real)
    requires base > 0.0
    ensures GainReached(Some(base), Some(cur), threshold) <==> cur - base >= threshold * base
  {
    var q := (cur - base) / base;
    assert q * base == cur - base;
    if q >= threshold {
      assert q * base >= threshold * base;
    }
    if cur - base >= threshold * base {
      assert q * base >= threshold * base;
    }
  }

  /** Reference meaning: some day in the 24 after `s` that the series still holds
      reached the gain. */
  ghost predicate Succeeds(closes: seq<Value>, s: nat, threshold: real) {
    s < |closes| &&
    exists t :: s < t <= s + GainWindow && t < |closes| && GainReached(closes[s], closes[t], threshold)
  }

  /** The inner loop from offset `i` on: the first day that reaches the gain. */
  function FirstGainFrom(closes: seq<Value>, s: nat, i: nat, threshold: real): (r: Option<nat>)
    requires s < |closes| && 1 <= i
    decreases GainWindow + 1 - i
    ensures r.Some? ==>
      s + i <= r.value <= s + GainWindow && r.value < |closes|
      && GainReached(closes[s], closes[r.value], threshold)
    ensures r.Some? ==> forall t :: s + i <= t < r.value ==> !GainReached(closes[s], closes[t], threshold)
    ensures r.None? ==>
      forall t :: s + i <= t <= s + GainWindow && t < |closes| ==> !GainReached(closes[s], closes[t], threshold)
  {
    if i > GainWindow || s + i >= |closes| then None
    else if GainReached(closes[s], closes[s + i], threshold) then Some(s + i)
    else FirstGainFrom(closes, s, i + 1, threshold)
  }

  /** The day on which the scan for reference day `s` stops with a success: the
      first qualifying day, so a gain already on day `s + 1` is found there. */
  function FirstGain(closes: seq<Value>, s: nat, threshold: real): (r: Option<nat>)
    requires s < |closes|
    ensures r.Some? <==> Succeeds(closes, s, threshold)
    ensures r.Some? ==>
      s < r.value <= s + GainWindow && r.value < |closes| && GainReached(closes[s], closes[r.value], threshold)
      && forall m :: s < m < r.value ==> !GainReached(closes[s], closes[m], threshold)
  {
    FirstGainFrom(closes, s, 1, threshold)
  }

  /** The tracker's output: the reference days that succeed, in input order, each
      occurrence kept or dropped on its own. */
  function TrackPrices(closes: seq<Value>, points: seq<nat>, threshold: real): (r: seq<nat>)
    requires InFrame(points, |closes|)
    ensures IsSubsequence(r, points)
  {
    if |points| == 0 then []
    else
      var rest := TrackPrices(closes, points[1..], threshold);
      if FirstGain(closes, points[0], threshold).Some? then [points[0]] + rest else rest
  }

  /** The tracker is exactly a filter: every occurrence of a succeeding day is
      kept, every other one dropped, so no day appears more often than it was
      given. */
  lemma {:induction false} TrackPricesFilters(closes: seq<Value>, points: seq<nat>, threshold: real)
    requires InFrame(points, |closes|)
    ensures forall p ::
      multiset(TrackPrices(closes, points, threshold))[p]
      == (if Succeeds(closes, p, threshold) then multiset(points)[p] else 0)
  {
    if |points| > 0 {
      var rest := points[1..];
      assert InFrame(rest, |closes|);
      TrackPricesFilters(closes, rest, threshold);
      var r := TrackPrices(closes, points, threshold);
      var r' := TrackPrices(closes, rest, threshold);
      assert points == [points[0]] + rest;
      assert multiset(points) == multiset{points[0]} + multiset(rest);
      if Succeeds(closes, points[0], threshold) {
        assert r == [points[0]] + r';
        assert multiset(r) == multiset{points[0]} + multiset(r');
      } else {
        assert r == r';
      }
    }
  }

  /** A day is in the output iff it was given and succeeds. */
  lemma TrackPricesMembers(closes: seq<Value>, points: seq<nat>, threshold: real)
    requires InFrame(points, |closes|)
    ensures forall p :: p in TrackPrices(closes, points, threshold) <==> p in points && Succeeds(closes, p, threshold)
  {
    var r := TrackPrices(closes, points, threshold);
    TrackPricesFilters(closes, points, threshold);
    forall p ensures p in r <==> p in points && Succeeds(closes, p, threshold) {
      assert p in r <==> multiset(r)[p] > 0;
      assert p in points <==> multiset(points)[p] > 0;
    }
  }

  /** What the later stages rely on: the output is drawn from the input, is no
      longer, and keeps a non-decreasing input non-decreasing. */
  lemma TrackPricesOrder(closes: seq<Value>, points: seq<nat>, threshold: real)
    requires InFrame(points, |closes|)
    ensures |TrackPrices(closes, points, threshold)| <= |points|
    ensures forall p :: p in TrackPrices(closes, points, threshold) ==> p in points
    ensures InFrame(TrackPrices(closes, points, threshold), |closes|)
    ensures NonDecreasing(points) ==> NonDecreasing(TrackPrices(closes, points, threshold))
  {
    var r := TrackPrices(closes, points, threshold);
    SubsequenceElements<nat>(r, points);
    if NonDecreasing(points) {
      SubsequenceNonDecreasing(r, points);
    }
    SubsequenceLength<nat>(r, points);
    forall k | 0 <= k < |r| ensures r[k] < |closes| {
      assert r[k] in r;
    }
  }

  /** The inner loop of `track_price_changes` for reference day `startIndex`. */
  method PriceTargetReached(closes: seq<Value>, startIndex: nat, threshold: real) returns (reached: bool)
    requires startIndex < |closes|
    ensures reached <==> Succeeds(closes, startIndex, threshold)
  {
    reached := false;
    var i := 1;
    while i < GainWindow + 1
      invariant 1 <= i
      invariant FirstGainFrom(closes, startIndex, i, threshold) == FirstGain(closes, startIndex, threshold)
    {
      if startIndex + i >= |closes| {
        break;
      }
      if GainReached(closes[startIndex], closes[startIndex + i], threshold) {
        reached := true;
        break;
      }
      i := i + 1;
    }
  }

  /** One step of the tracker at position `n` of the reference days. */
  lemma TrackPricesStep(closes: seq<Value>, points: seq<nat>, n: nat, threshold: real)
    requires InFrame(points, |closes|) && n < |points|
    ensures InFrame(points[n..], |closes|) && InFrame(points[n + 1..], |closes|)
    ensures Succeeds(closes, points[n], threshold) ==>
      TrackPrices(closes, points[n..], threshold) == [points[n]] + TrackPrices(closes, points[n + 1..], threshold)
    ensures !Succeeds(closes, points[n], threshold) ==>
      TrackPrices(closes, points[n..], threshold) == TrackPrices(closes, points[n + 1..], threshold)
  {
    assert points[n..][1..] == points[n + 1..];
  }

  /** The outer loop of `track_price_changes` over the reference days. */
  method TrackPriceChanges(closes: seq<Value>, points: seq<nat>, threshold: real) returns (successfulPoints: seq<nat>)
    requires InFrame(points, |closes|)
    ensures successfulPoints == TrackPrices(closes, points, threshold)
  {
    successfulPoints := [];
    var n := 0;
    while n < |points|
      invariant n <= |points|
      invariant successfulPoints + TrackPrices(closes, points[n..], threshold) == TrackPrices(closes, points, threshold)
    {
      var reached := PriceTargetReached(closes, points[n], threshold);
      TrackPricesStep(closes, points, n, threshold);
      if reached {
        successfulPoints := successfulPoints + [points[n]];
      }
      n := n + 1;
    }
  }

  /** The scan for a reference day inside a suffix of the series is the scan for
      the same day in the full series: the window only ever looks forward. */
  lemma SucceedsInSuffix(closes: seq<Value>, c: nat, p: nat, threshold: real)
    requires c + p < |closes|
    ensures Succeeds(closes[c..], p, threshold) <==> Succeeds(closes, c + p, threshold)
  {
    var w := closes[c..];
    if Succeeds(w, p, threshold) {
      var t :| p < t <= p + GainWindow && t < |w| && GainReached(w[p], w[t], threshold);
      assert GainReached(closes[c + p], closes[c + t], threshold);
    }
    if Succeeds(closes, c + p, threshold) {
      var t :| c + p < t <= c + p + GainWindow && t < |closes| && GainReached(closes[c + p], closes[t], threshold);
      assert w[t - c] == closes[t];
      assert GainReached(w[p], w[t - c], threshold);
    }
  }
}

=== FILE: sequences.dfy ===
/** Order and selection relations on sequences, shared by the scans. */
module Sequences {

  ghost predicate StrictlyIncreasing(s: seq<nat>) {
    forall i, j :: 0 <= i < j < |s| ==> s[i] < s[j]
  }

  ghost predicate NonDecreasing(s: seq<nat>) {
    forall i, j :: 0 <= i < j < |s| ==> s[i] <= s[j]
  }

  /** Every element is a valid row index of a frame with `n` rows. */
  ghost predicate InFrame(xs: seq<nat>, n: nat) {
    forall k :: 0 <= k < |xs| ==> xs[k] < n
  }

  /** Concatenation regroups freely. */
  lemma Associate<T>(a: seq<T>, b: seq<T>, c: seq<T>)
    ensures (a + b) + c == a + (b + c)
  {
  }

  /** `a` is `b` with some elements dropped, the rest kept in their order. */
  ghost predicate IsSubsequence<T>(a: seq<T>, b: seq<T>)
    decreases |b|
  {
    if |a| == 0 then true
    else if |b| == 0 then false
    else (a[0] == b[0] && IsSubsequence(a[1..], b[1..])) || IsSubsequence(a, b[1..])
  }

  /** Everything a subsequence holds comes from the sequence it was drawn from. */
  lemma {:induction false} SubsequenceElements<T>(a: seq<T>, b: seq<T>)
    requires IsSubsequence(a, b)
    ensures forall x :: x in a ==> x in b
    decreases |b|
  {
    if |a| > 0 {
      if a[0] == b[0] && IsSubsequence(a[1..], b[1..]) {
        SubsequenceElements(a[1..], b[1..]);
        assert forall x :: x in a ==> x == b[0] || x in a[1..];
      } else {
        SubsequenceElements(a, b[1..]);
      }
    }
  }

  /** A subsequence is never longer than the sequence it was drawn from. */
  lemma {:induction false} SubsequenceLength<T>(a: seq<T>, b: seq<T>)
    requires IsSubsequence(a, b)
    ensures |a| <= |b|
    decreases |b|
  {
    if |a| > 0 {
      if a[0] == b[0] && IsSubsequence(a[1..], b[1..]) {
        SubsequenceLength(a[1..], b[1..]);
      } else {
        SubsequenceLength(a, b[1..]);
      }
    }
  }

  /** Dropping elements keeps a strictly increasing sequence strictly increasing. */
  lemma {:induction false} SubsequenceIncreasing(a: seq<nat>, b: seq<nat>)
    requires IsSubsequence(a, b) && StrictlyIncreasing(b)
    ensures StrictlyIncreasing(a)
    decreases |b|
  {
    if |a| > 0 {
      assert StrictlyIncreasing(b[1..]);
      if a[0] == b[0] && IsSubsequence(a[1..], b[1..]) {
        SubsequenceIncreasing(a[1..], b[1..]);
        SubsequenceElements(a[1..], b[1..]);
        forall j | 0 < j < |a| ensures a[0] < a[j] {
          assert a[j] in a[1..];
        }
      } else {
        SubsequenceIncreasing(a, b[1..]);
      }
    }
  }

  /** Dropping elements keeps a non-decreasing sequence non-decreasing. */
  lemma {:induction false} SubsequenceNonDecreasing(a: seq<nat>, b: seq<nat>)
    requires IsSubsequence(a, b) && NonDecreasing(b)
    ensures NonDecreasing(a)
    decreases |b|
  {
    if |a| > 0 {
      assert NonDecreasing(b[1..]);
      if a[0] == b[0] && IsSubsequence(a[1..], b[1..]) {
        SubsequenceNonDecreasing(a[1..], b[1..]);
        SubsequenceElements(a[1..], b[1..]);
        forall j | 0 < j < |a| ensures a[0] <= a[j] {
          assert a[j] in a[1..];
        }
      } else {
        SubsequenceNonDecreasing(a, b[1..]);
      }
    }
  }
}

=== FILE: signal_filter.dfy ===
/**
  The current-state buy filter of `filter_stocks`: a recent bullish EMA
  alignment, then MACD, RSI and stochastic conditions on the last row, plus
  an informational "%K above %D in the last 5 rows" flag.

  Python's `iloc[-k]` raises IndexError on a frame with fewer than k rows.
  The backward scans stop at their first hit, so a short frame raises only
  when a scan runs past its start; the model returns `IndexError` in exactly
  those cases, and never for a frame of 5 rows or more.
 */
module SignalFilter {
  import opened Indicators
  import opened Sequences

  type Symbol = string

  /** A computation that either yields a value or raises Python's IndexError. */
  datatype Result<+T> = Ok(value: T) | IndexError

  /** `range(1, 5)`: the EMA scan tests loop offsets 1..4. */
  const EmaLookback: nat := 4
  /** `range(1, 6)`: the stochastic scan reads rows -1..-5. */
  const StochLookback: nat := 5

  const RsiLow: real := 40.0
  const RsiHigh: real := 60.0

  /** `ema_crossover_yesterday`: the short EMA is at or below one of the slower EMAs.
      With a NaN short EMA a row is neither `Aligned` nor `NotAligned`. */
  predicate NotAligned(r: Row) {
    Le(r.ema5, r.ema13) || Le(r.ema5, r.ema26)
  }

  /** The test of loop offset `i`: row -i is aligned and row -i-1 is not. */
  predicate EmaCrossAt(f: Frame, i: nat)
    requires 1 <= i < |f|
  {
    Aligned(Back(f, i)) && NotAligned(Back(f, i + 1))
  }

  /** Reference meaning of `ema_crossover_recent`: some offset in 1..4 crosses. */
  ghost predicate RecentEmaCross(f: Frame) {
    exists i :: 1 <= i <= EmaLookback && i < |f| && EmaCrossAt(f, i)
  }

  /** `Stoch_K > Stoch_D` on one row. */
  predicate StochAbove(r: Row) {
    Gt(r.stochK, r.stochD)
  }

  /** Reference meaning of `stoch_crossover_last_5_days`. */
  ghost predicate StochAboveInLast5(f: Frame) {
    exists i :: 1 <= i <= StochLookback && i <= |f| && StochAbove(Back(f, i))
  }

  /** `macd_condition`. */
  predicate MacdCondition(r: Row) {
    Gt(r.macd, r.macdSignal) && Gt(r.macd, Some(0.0))
  }

  /** `rsi_condition`: the chained comparison `40 <= RSI <= 60`. */
  predicate RsiCondition(r: Row) {
    Le(Some(RsiLow), r.rsi) && Le(r.rsi, Some(RsiHigh))
  }

  /** The EMA loop from offset `i` on: reads rows -i and -i-1, stops at the first crossing. */
  function EmaScan(f: Frame, i: nat): (r: Result<bool>)
    requires 1 <= i <= EmaLookback + 1
    decreases EmaLookback + 1 - i
    ensures r == Ok(true) <==> exists k :: i <= k <= EmaLookback && k < |f| && EmaCrossAt(f, k)
    ensures r == IndexError <==>
      i <= EmaLookback && |f| <= EmaLookback
      && !(exists k :: i <= k <= EmaLookback && k < |f| && EmaCrossAt(f, k))
  {
    if i > EmaLookback then Ok(false)
    else if |f| < i + 1 then IndexError
    else if EmaCrossAt(f, i) then Ok(true)
    else EmaScan(f, i + 1)
  }

  /** The stochastic loop from row -i on: stops at the first row with %K above %D. */
  function StochScan(f: Frame, i: nat): (r: Result<bool>)
    requires 1 <= i <= StochLookback + 1
    decreases StochLookback + 1 - i
    ensures r == Ok(true) <==> exists k :: i <= k <= StochLookback && k <= |f| && StochAbove(Back(f, k))
    ensures r == IndexError <==>
      i <= StochLookback && |f| < StochLookback
      && !(exists k :: i <= k <= StochLookback && k <= |f| && StochAbove(Back(f, k)))
  {
    if i > StochLookback then Ok(false)
    else if |f| < i then IndexError
    else if StochAbove(Back(f, i)) then Ok(true)
    else StochScan(f, i + 1)
  }

  /** The row appended to `stock_details`. */
  datatype SignalRecord = SignalRecord(
    stock: Symbol,
    emaCrossover: bool,
    macdCondition: bool,
    rsiCondition: bool,
    stochCrossover: bool,
    stochCrossoverLast5Days: string)

  /** What one iteration of the instrument loop does. */
  datatype Verdict =
    | Skipped                        // empty data: `continue`
    | Rejected                       // evaluated, not appended
    | Selected(record: SignalRecord) // appended to both output lists

  /** One iteration of the `filter_stocks` loop for one instrument's frame. */
  function Evaluate(stock: Symbol, f: Frame): (r: Result<Verdict>)
    ensures |f| == 0 ==> r == Ok(Skipped)
    ensures |f| >= StochLookback ==> r.Ok?
    ensures r == IndexError <==>
      1 <= |f| < StochLookback && (!RecentEmaCross(f) || !StochAboveInLast5(f))
    ensures (r.Ok? && r.value.Selected?) <==>
      |f| > 0 && RecentEmaCross(f)
      && MacdCondition(Back(f, 1)) && RsiCondition(Back(f, 1)) && StochAbove(Back(f, 1))
    ensures r.Ok? && r.value.Selected? ==>
      r.value.record == SignalRecord(stock, true, true, true, true, "Yes")
  {
    if |f| == 0 then Ok(Skipped)
    else
      match EmaScan(f, 1)
      case IndexError => IndexError
      case Ok(emaCrossoverRecent) =>
        if !emaCrossoverRecent then Ok(Rejected)
        else
          var last := Back(f, 1);
          var macd := MacdCondition(last);
          var rsi := RsiCondition(last);
          var stoch := StochAbove(last);
          match StochScan(f, 1)
          case IndexError => IndexError
          case Ok(last5) =>
            if macd && rsi && stoch then
              Ok(Selected(SignalRecord(stock, emaCrossoverRecent, macd, rsi, stoch,
                                       if last5 then "Yes" else "No")))
            else Ok(Rejected)
  }

  /** The informational flag reads "Yes" exactly when %K was above %D on one of
      the last five rows, and it plays no part in the verdict: on a frame of at
      least five rows the verdict is decided by the four conditions alone. */
  lemma {:induction false} Last5FlagIsInformational(stock: Symbol, f: Frame)
    requires |f| >= StochLookback
    ensures StochScan(f, 1) == Ok(StochAboveInLast5(f))
    ensures EmaScan(f, 1) == Ok(RecentEmaCross(f))
    ensures Evaluate(stock, f).Ok?
    ensures Evaluate(stock, f).value.Selected? <==>
      RecentEmaCross(f) && MacdCondition(Back(f, 1)) && RsiCondition(Back(f, 1)) && StochAbove(Back(f, 1))
  {
    var s := StochScan(f, 1);
    assert s != IndexError;
    var e := EmaScan(f, 1);
    assert e != IndexError;
  }

  /** The whole `filter_stocks` loop: the symbols that pass, in order, with their
      detail records; an IndexError in any instrument aborts the call. */
  function FilterStocks(universe: seq<(Symbol, Frame)>): (r: Result<(seq<Symbol>, seq<SignalRecord>)>)
    ensures r.Ok? <==> forall k :: 0 <= k < |universe| ==> Evaluate(universe[k].0, universe[k].1).Ok?
    ensures r.Ok? ==> |r.value.0| == |r.value.1| <= |universe|
    ensures r.Ok? ==> forall k :: 0 <= k < |r.value.1| ==> r.value.1[k].stock == r.value.0[k]
  {
    if |universe| == 0 then Ok(([], []))
    else
      var head := Evaluate(universe[0].0, universe[0].1);
      var tail := FilterStocks(universe[1..]);
      if head.IndexError? || tail.IndexError? then IndexError
      else
        var (stocks, details) := tail.value;
        match head.value
        case Selected(rec) => Ok(([universe[0].0] + stocks, [rec] + details))
        case _ => Ok((stocks, details))
  }

  /** A record is emitted exactly when some instrument of the universe was
      selected with it. */
  lemma {:induction false} FilterStocksMembers(universe: seq<(Symbol, Frame)>)
    requires FilterStocks(universe).Ok?
    ensures forall rec :: rec in FilterStocks(universe).value.1 <==>
      exists k :: 0 <= k < |universe| && Evaluate(universe[k].0, universe[k].1) == Ok(Selected(rec))
  {
    if |universe| > 0 {
      var rest := universe[1..];
      FilterStocksMembers(rest);
      var head := Evaluate(universe[0].0, universe[0].1);
      var details := FilterStocks(universe).value.1;
      var tail := FilterStocks(rest).value.1;
      forall rec
        ensures rec in details <==>
          exists k :: 0 <= k < |universe| && Evaluate(universe[k].0, universe[k].1) == Ok(Selected(rec))
      {
        if rec in details {
          if head == Ok(Selected(rec)) {
            assert Evaluate(universe[0].0, universe[0].1) == Ok(Selected(rec));
          } else {
            assert rec in tail;
            var k :| 0 <= k < |rest| && Evaluate(rest[k].0, rest[k].1) == Ok(Selected(rec));
            assert rest[k] == universe[k + 1];
          }
        }
        if exists k :: 0 <= k < |universe| && Evaluate(universe[k].0, universe[k].1) == Ok(Selected(rec)) {
          var k :| 0 <= k < |universe| && Evaluate(universe[k].0, universe[k].1) == Ok(Selected(rec));
          if k > 0 {
            assert rest[k - 1] == universe[k];
            assert rec in tail;
          }
        }
      }
    }
  }

  /** Instrument `k` of the universe is selected by its evaluation. */
  predicate IsSelected(universe: seq<(Symbol, Frame)>, k: nat)
    requires k < |universe|
  {
    var v := Evaluate(universe[k].0, universe[k].1);
    v.Ok? && v.value.Selected?
  }

  /** The positions, from `i` on, of the instruments that are selected. */
  ghost function SelectedFrom(universe: seq<(Symbol, Frame)>, i: nat): seq<nat>
    decreases |universe| - i
  {
    if i >= |universe| then []
    else if IsSelected(universe, i) then [i] + SelectedFrom(universe, i + 1)
    else SelectedFrom(universe, i + 1)
  }

  /** Those positions are exactly the selected instruments from `i` on, each
      once, ascending. */
  lemma {:induction false} SelectedFromMeaning(universe: seq<(Symbol, Frame)>, i: nat)
    decreases |universe| - i
    ensures forall k :: k in SelectedFrom(universe, i) <==> i <= k < |universe| && IsSelected(universe, k)
    ensures InFrame(SelectedFrom(universe, i), |universe|)
    ensures StrictlyIncreasing(SelectedFrom(universe, i))
  {
    if i < |universe| {
      SelectedFromMeaning(universe, i + 1);
      var later := SelectedFrom(universe, i + 1);
      if IsSelected(universe, i) {
        assert SelectedFrom(universe, i) == [i] + later;
        forall k | 0 <= k < |later| ensures i < later[k] {
          assert later[k] in later;
        }
      }
    }
  }

  /** When the whole loop succeeds, so does the loop from instrument `i` on. */
  lemma {:induction false} FilterStocksSuffix(universe: seq<(Symbol, Frame)>, i: nat)
    requires i <= |universe| && FilterStocks(universe).Ok?
    ensures FilterStocks(universe[i..]).Ok?
  {
    if i > 0 {
      FilterStocksSuffix(universe, i - 1);
      var prev := universe[i - 1..];
      assert prev[1..] == universe[i..];
    }
  }

  /** From instrument `i` on, the loop appends one symbol and one record per
      selected instrument, in universe order: entry k belongs to the k-th
      selected instrument. */
  lemma {:induction false} FilterStocksFrom(universe: seq<(Symbol, Frame)>, i: nat)
    requires i <= |universe| && FilterStocks(universe).Ok?
    decreases |universe| - i
    ensures FilterStocks(universe[i..]).Ok?
    ensures InFrame(SelectedFrom(universe, i), |universe|)
    ensures |FilterStocks(universe[i..]).value.1| == |SelectedFrom(universe, i)|
    ensures forall k :: 0 <= k < |FilterStocks(universe[i..]).value.1| ==>
      Evaluate(universe[SelectedFrom(universe, i)[k]].0, universe[SelectedFrom(universe, i)[k]].1)
        == Ok(Selected(FilterStocks(universe[i..]).value.1[k]))
  {
    SelectedFromMeaning(universe, i);
    FilterStocksSuffix(universe, i);
    var suffix := universe[i..];
    if i < |universe| {
      FilterStocksFrom(universe, i + 1);
      assert suffix[0] == universe[i] && suffix[1..] == universe[i + 1..];
      var rest := FilterStocks(universe[i + 1..]).value.1;
      var later := SelectedFrom(universe, i + 1);
      match Evaluate(universe[i].0, universe[i].1).value
      case Selected(rec) =>
        assert FilterStocks(suffix).value.1 == [rec] + rest;
        assert SelectedFrom(universe, i) == [i] + later;
      case _ =>
        assert FilterStocks(suffix).value.1 == rest;
        assert SelectedFrom(universe, i) == later;
    }
  }

  /** One symbol and one record per selected instrument, in universe order:
      record k is the k-th selected instrument's, and symbol k is its name. */
  lemma FilterStocksPerInstrument(universe: seq<(Symbol, Frame)>)
    requires FilterStocks(universe).Ok?
    ensures InFrame(SelectedFrom(universe, 0), |universe|)
    ensures |FilterStocks(universe).value.0| == |FilterStocks(universe).value.1| == |SelectedFrom(universe, 0)|
    ensures forall k :: 0 <= k < |FilterStocks(universe).value.1| ==>
      && Evaluate(universe[SelectedFrom(universe, 0)[k]].0, universe[SelectedFrom(universe, 0)[k]].1)
           == Ok(Selected(FilterStocks(universe).value.1[k]))
      && FilterStocks(universe).value.0[k] == universe[SelectedFrom(universe, 0)[k]].0
  {
    FilterStocksFrom(universe, 0);
    assert universe[0..] == universe;
  }
}
